=== FILE: README.md ===
# terraform-provider-virtualbox core, in Dafny

This project models the core of a Terraform provider that manages local
VirtualBox virtual machines by calling the `VBoxManage` command-line tool
and, for SSH key injection, `virt-sysprep`. It covers two parts:

- **The API package** (`internal/virtualbox_api/api.go`):
  - the parser for `showvminfo --machinereadable` dumps (`GetVMInfo` with `vmInfoValueToString`);
  - the guest IP extraction of `GetVmIp`;
  - the NAT rule that `ForwardLocalPort` installs under the name `terraform_ssh_port_rule`;
  - the command sequences of `CreateVM`, `StartVM`, `StopVM`, `DestroyVM` and `ForwardLocalPort`;
  - the `InjectSSHKey` pipeline: copy the disk image to `/tmp/<base name>`, customise the copy, write it back, remove the copy.
- **The `virtualbox_vm` resource** (`internal/provider/virtualbox_vm_resource.go`): the control flow of Create, Read, Update and Delete over the API, including the default SSH user `root` and the rollback that Create performs when a step fails.

External effects are parameters:

- The external tools are an oracle `Tool`. It answers the n-th command with its stdout on success or its stderr on failure.
- The host-port probe is a `Probe` value: a port in 7000..8000, or the reason no port was free.
- The file system is a `FileStore` map from path to bytes. `IoFaults` says which file-system calls fail and with what message.
- `virt-sysprep`'s change to the image is an `edit` function.
- The resource layer sees the API as an `Api` record with one oracle function per entry point.

A Go runtime panic is not an error value. It ends the provider process. The model makes it an explicit outcome, `Panic(reason)`, distinct from `Err(msg)`.

Modules, one file each:

| file | module | contents |
|---|---|---|
| outcomes.dfy | Outcomes | `Option`, `Outcome` (Ok, Err or Panic) |
| strings.dfy | Strings | `strings.Split`, `SplitN(…, 2)`, `Join`, `%d`, `path.Base` |
| machine_readable.dfy | MachineReadable | the descriptor and the showvminfo parser |
| guest_property.dfy | GuestProperty | the guest IP extraction |
| port_forwarding.dfy | PortForwarding | the NAT rule and its round trip through the parser |
| vbox_manage.dfy | VBoxManage | commands, the tool oracle, the lifecycle operations |
| injector.dfy | Injector | `InjectSSHKey` over the file store |
| vm_resource.dfy | VmResource | Create, Read, Update, Delete |

## Model

Source paths are relative to the repository root.

| member | source | states |
|---|---|---|
| Strings.Split | internal/virtualbox_api/api.go:173 | splitting on a one-character separator yields at least one piece, no piece contains the separator, and joining the pieces with it gives the input back |
| Strings.SplitJoin | internal/virtualbox_api/api.go:190 | splitting the comma-join of comma-free fields returns exactly those fields |
| Strings.Cut | internal/virtualbox_api/api.go:174-179 | `SplitN(line, "=", 2)` has two parts exactly when the line contains '='; the key part has no '=' and key + "=" + value is the line |
| Strings.CutAtFirst | internal/virtualbox_api/api.go:174 | only the first '=' cuts, so a value may itself contain '=' |
| Strings.NatToDecimal | internal/virtualbox_api/api.go:230 | `%d` of a non-negative number is a non-empty string of digits with a leading zero only for 0 |
| Strings.DecimalRoundTrip | internal/virtualbox_api/api.go:230 | reading the decimal rendering of a port back gives the port |
| Strings.Base | internal/virtualbox_api/api.go:246 | the base name is a '/'-free suffix of the path, preceded by '/' when shorter than the path |
| MachineReadable.Recognise | internal/virtualbox_api/api.go:180-192 | exactly the keys name, UUID, VMState, "SATA Controller-0-0" (quoted) and Forwarding(0) select a field, each its own |
| MachineReadable.Unquote | internal/virtualbox_api/api.go:130-141 | the value is the result with at most one leading and at most one trailing double quote restored, each removed only when present; a lone quote becomes empty |
| MachineReadable.UnquoteQuote | internal/virtualbox_api/api.go:130-141 | stripping one layer of quotes undoes adding one, whatever the text contains |
| MachineReadable.LineEntry | internal/virtualbox_api/api.go:174-180 | a recognised line is exactly key + "=" + raw value; a line without '=' sets nothing |
| MachineReadable.ApplyLine | internal/virtualbox_api/api.go:180-192 | a line sets the field its key names to the unquoted value (third field from the end for Forwarding(0)) and no other field |
| MachineReadable.ParseLinesStep | internal/virtualbox_api/api.go:173-193 | the last line of a dump decides any field it sets and leaves every other field as the earlier lines left it |
| MachineReadable.LineEntryOfKeyValue | internal/virtualbox_api/api.go:174-189 | every recognised key followed by '=' and any value is parsed as that field with that value |
| MachineReadable.UnknownKeySetsNothing | internal/virtualbox_api/api.go:180 | a `key=value` line with an unknown key is ignored |
| MachineReadable.ParseLinesProvenance | internal/virtualbox_api/api.go:172-193 | the loop invents nothing: every field of the descriptor is empty or holds the value of some line that sets it |
| MachineReadable.ParseDumpProvenance | internal/virtualbox_api/api.go:172-194 | `ParseDump` splits the dump at newlines and folds the lines from the empty descriptor (`ParseLines`); every field of its result is empty or comes from a line of the dump that sets it (`LastOccurrenceWins` says which line, `UnsetFieldStaysEmpty` when it stays empty) |
| MachineReadable.LastOccurrenceWins | internal/virtualbox_api/api.go:173-193 | when a key repeats, the last line that sets the field decides its value |
| MachineReadable.UnsetFieldStaysEmpty | internal/virtualbox_api/api.go:172-193 | a field that no line sets stays empty |
| MachineReadable.IgnoredLineIsHarmless | internal/virtualbox_api/api.go:175-179 | inserting an ignored line (no '=' or an unknown key) anywhere in a dump leaves the parse unchanged |
| MachineReadable.NoKnownKeysGivesEmptyInfo | internal/virtualbox_api/api.go:172-194 | a dump without recognised lines parses, without panicking, to the empty descriptor |
| MachineReadable.EmptyDumpGivesEmptyInfo | internal/virtualbox_api/api.go:172-194 | the empty dump parses to the empty descriptor |
| MachineReadable.QuotedValueParsed | internal/virtualbox_api/api.go:181-188 | a one-line dump `key="v"` stores v in the key's field, even when v contains '=' or '"' |
| GuestProperty.ExtractIp | internal/virtualbox_api/api.go:157-158 | the third space-separated token is one character, then the address, then one more character; the address holds no space |
| GuestProperty.PropertyLineGivesValue | internal/virtualbox_api/api.go:155-158 | for output `P = 'V' @ T` with no space in P or V, the address is exactly V, whatever the timestamp T holds |
| GuestProperty.SampleOutput | internal/virtualbox_api/api.go:155-158 | the sample output line yields 192.168.1.157 |
| GuestProperty.EmptyOutputNotOk | internal/virtualbox_api/api.go:157 | empty output has no third token, so the code would panic on it |
| PortForwarding.NatRuleIsJoin | internal/virtualbox_api/api.go:230 | `NatRule`, the `--natpf1` argument built by the format string, equals its six fields (name, tcp, 127.0.0.1, host port, empty guest address, guest port) joined by commas; `NatRuleSplits` inverts the join |
| PortForwarding.NatRuleSplits | internal/virtualbox_api/api.go:230 | a rule whose name has no comma splits back into exactly its six fields |
| PortForwarding.ForwardingRoundTrip | internal/virtualbox_api/api.go:189-191 | a quoted Forwarding(0) value that echoes a rule parses to the rule's host port as the SSH port |
| PortForwarding.SshRuleRoundTrip | internal/virtualbox_api/api.go:225-231 | the same round trip for the rule name `terraform_ssh_port_rule` |
| PortForwarding.RuleLineIsOneLine | internal/virtualbox_api/api.go:173 | the Forwarding(0) line echoing a rule with a newline-free name is a dump of exactly one line |
| PortForwarding.RuleLineSetsPort | internal/virtualbox_api/api.go:189-191 | the Forwarding(0) line that echoes a rule with a comma-free name is parsed without panicking and sets the SSH port to the rule's host port |
| PortForwarding.RoundTripInDump | internal/virtualbox_api/api.go:173-193 | in a whole dump whose last Forwarding(0) line echoes the rule, the SSH port is the host port, whatever the other lines are |
| VBoxManage.GetVmInfo | internal/virtualbox_api/api.go:161-195 | issues one showvminfo; a failure returns its stderr; a dump returns its parse, or panics when a Forwarding(0) value has fewer than three fields |
| VBoxManage.RunSteps | internal/virtualbox_api/api.go:68-82 | commands are issued in order; each is issued only after the previous one succeeded; the first failure's stderr is the error; success means every command ran and succeeded |
| VBoxManage.StepsThenInfo | internal/virtualbox_api/api.go:79-83 | steps followed by showvminfo stop at the first failure of the whole sequence, and after the whole sequence the descriptor comes from the final dump |
| VBoxManage.CreateVm | internal/virtualbox_api/api.go:58-84 | runs import (with --vsys=0, --vmname, --memory, --cpus), then modifyvm --nat-localhostreachable1 on, then showvminfo; stops at the first failure with its stderr; after all three, the descriptor comes from the final dump |
| VBoxManage.StartVm | internal/virtualbox_api/api.go:86-98 | runs startvm --type=<boot>, then showvminfo, stopping at the first failure |
| VBoxManage.StopVm | internal/virtualbox_api/api.go:100-112 | runs controlvm poweroff, then showvminfo, stopping at the first failure |
| VBoxManage.DestroyVm | internal/virtualbox_api/api.go:114-128 | runs unregistervm --delete --delete-all and succeeds exactly when that succeeds, returning stderr otherwise |
| VBoxManage.GetVmIp | internal/virtualbox_api/api.go:143-159 | runs guestproperty enumerate on the VM id; a failure gives stderr; well-formed output gives the extracted address; output too short panics |
| VBoxManage.ForwardLocalPort | internal/virtualbox_api/api.go:197-237 | when the probe finds no port, nothing is issued and the error carries the prefix; otherwise it runs modifyvm --nic1 nat, then the --natpf1 rule with the probed port (in 7000..8000), then showvminfo, stopping at the first failure |
| VBoxManage.GetVmInfoReportsToolError | internal/virtualbox_api/api.go:168-171 | a failing showvminfo yields its stderr as the error, not an empty descriptor |
| VBoxManage.GetVmInfoOfEmptyDump | internal/virtualbox_api/api.go:172-194 | an empty dump yields the empty descriptor and no error |
| VBoxManage.CreateVmImportFailure | internal/virtualbox_api/api.go:68-71 | when the import fails, nothing else is issued and the import's stderr is returned |
| VBoxManage.ForwardLocalPortReportsProbedPort | internal/virtualbox_api/api.go:197-237 | when the tool echoes the installed rule, the returned descriptor's SSH port is the probed port |
| Injector.ScratchPath | internal/virtualbox_api/api.go:246-247 | the scratch file is /tmp/ followed by the image's whole base name: a '/'-free suffix of the path that is preceded by '/' unless it is the whole path |
| Injector.RewriteImage | internal/virtualbox_api/api.go:249-295 | effects follow the pipeline order with the scratch removal last; virt-sysprep is issued only after the scratch copy was synced; only the image and scratch paths change; the scratch file is removed once created; when the scratch file is not the image, the image is untouched unless reopened after virt-sysprep succeeded and is never deleted; on success it holds the customised copy; virt-sysprep is the only command; no panic |
| Injector.RewriteImageOutcome | internal/virtualbox_api/api.go:249-295 | a missing image gives the `os.Open` error; otherwise the error is that of the first failing file-system call, or virt-sysprep's stderr when it fails before any later call; a run in which nothing fails returns success |
| Injector.InjectSshKey | internal/virtualbox_api/api.go:239-296 | reads the descriptor first; a failed read issues nothing more, changes no file and returns that error; otherwise it rewrites the descriptor's disk image through /tmp/<base name> |
| Injector.EndedAfter | internal/virtualbox_api/api.go:253-260 | a run that stopped after the scratch file was created ends with its removal; customisation happened exactly when the run got past virt-sysprep |
| Injector.ImageWrittenOnlyAfterCustomization | internal/virtualbox_api/api.go:278-287 | when the scratch file is not the image, in every run the image is opened for writing only after virt-sysprep succeeded on the copy |
| Injector.ScratchOfTmpImage | internal/virtualbox_api/api.go:246-247 | the scratch path of an image directly under /tmp is the image itself |
| Injector.TmpImageLostOnSuccess | internal/virtualbox_api/api.go:246-260 | as written, for such an image a run in which every step succeeds returns success and leaves the image deleted |
| Injector.TmpImageLostOnFailedSysprep | internal/virtualbox_api/api.go:246-260 | as written, for such an image a run whose virt-sysprep fails returns the tool's error and still leaves the image deleted |
| Injector.TmpImageExample | internal/virtualbox_api/api.go:246-260 | the same for /tmp/disk.vmdk |
| Injector.SafeScratchPath | internal/virtualbox_api/api.go:246-247 | the corrected scratch path is under /tmp, never the image, and the usual one whenever that differs from the image |
| Injector.InjectSshKeyFixed | internal/virtualbox_api/api.go:239-296 | a failed read issues nothing more and changes no file; otherwise it is exactly the pipeline through the corrected scratch path, so the image is never deleted, is changed only when reopened, and on success holds the customised copy |
| Injector.FixedRunKeepsImage | internal/virtualbox_api/api.go:239-296 | with the corrected scratch path, a run in which no step fails and virt-sysprep succeeds returns success for every image, one directly under /tmp included, leaves the image holding the customised copy and removes the scratch file |
| VmResource.SshUserOf | internal/provider/virtualbox_vm_resource.go:152-155 | the defaulting rule itself (the configured user, or root); the call-order predicate `MayFollow` pins InjectSSHKey's user argument to it, so `CreateWithCallOrder` states the default |
| VmResource.Rollback | internal/provider/virtualbox_vm_resource.go:137-141 | a failed step is reported under its own summary, then the VM is destroyed by its configured name; the destroy error is reported exactly when the destroy failed; as written, a successful destroy panics on a nil error |
| VmResource.CreateWithCallOrder | internal/provider/virtualbox_vm_resource.go:131-176 | calls go CreateVM with the plan's arguments, then ForwardLocalPort to guest port 22 and InjectSSHKey with the user and key only when a key is set, then StartVM headless; a destroy by name comes only last |
| VmResource.CreateWithTargetsCarriedId | internal/provider/virtualbox_vm_resource.go:145-168 | each later call addresses the VM by the id the descriptor from the step before carried |
| VmResource.CreateWithEarlierStepsSucceeded | internal/provider/virtualbox_vm_resource.go:137-174 | a step is followed by the next step only when it succeeded |
| VmResource.CreateWithRollsBackOnlyAfterFailure | internal/provider/virtualbox_vm_resource.go:137-174 | the VM is destroyed only right after a step that returned an error; never after a success, and nothing is called after a panic |
| VmResource.Create | internal/provider/virtualbox_vm_resource.go:121-186 | the call order and id flow above, with the rollback only right after a step that returned an error; the state is written exactly when no diagnostic was added and nothing panicked, and it is then the plan with StartVM's id and SSH port; a failure that returns ends with a destroy by name and the two diagnostics; a panic comes from an API call that panicked or from the rollback after a failed step whose destroy succeeded, so when every call succeeds the state is written |
| VmResource.CreateReportingRollback | internal/provider/virtualbox_vm_resource.go:121-186 | the same call order, id flow and rollback-only-after-an-error as Create; the corrected rollback reports the destroy error exactly when there is one and panics only where an API call panicked |
| VmResource.CreateDiffersOnlyAfterSuccessfulDestroy | internal/provider/virtualbox_vm_resource.go:139-140 | Create and its corrected form differ only when a rollback's destroy succeeded; Create then panics on a nil error where the correction returns the same diagnostics |
| VmResource.RollbackPanicsAfterSuccessfulDestroy | internal/provider/virtualbox_vm_resource.go:137-141 | as written, a failed CreateVM followed by a successful destroy panics after reporting "Error creating new vm" |
| VmResource.ReportingRollbackReturnsAfterSuccessfulDestroy | internal/provider/virtualbox_vm_resource.go:137-141 | the corrected rollback returns with that single diagnostic |
| VmResource.Read | internal/provider/virtualbox_vm_resource.go:188-207 | calls GetVMInfo with the stored id; on success only the SSH port is refreshed; an error adds "Error getting vm info" and writes no state; a panic propagates |
| VmResource.ReadIsStable | internal/provider/virtualbox_vm_resource.go:198-206 | the state that a Read wrote keeps the stored id, so reading it again queries the same VM |
| VmResource.Update | internal/provider/virtualbox_vm_resource.go:209-221 | the plan becomes the state, without any API call or diagnostic |
| VmResource.Delete | internal/provider/virtualbox_vm_resource.go:223-241 | destroys the VM by its stored id; an error adds "Error destroying vm" |
| VmResource.LifecycleAddressesStartedVm | internal/provider/virtualbox_vm_resource.go:177-235 | after a successful Create, Read and Delete address the id that StartVM returned, and Read keeps the state Create wrote apart from the SSH port |

## Left out

- `runGetOutput`, meaning real process execution, is left out. Each command's answer comes from the `Tool` oracle: stdout on a zero exit status, stderr otherwise.
- The port probe of packer-plugin-sdk's `ListenRangeConfig.Listen` (api.go:198-209) is not part of this model. Its answer is the `Probe` input. The range is taken as inclusive, 7000..8000, and closing the listener is not modelled.
- File-system syscalls are modelled abstractly:
  - directories, permissions and partial writes are not modelled;
  - a failing `io.Copy` writes nothing;
  - errors from the deferred `Close` calls are ignored, as in the code;
  - the deferred `os.Remove` is assumed to succeed. When it fails, the code ignores the error and the scratch file stays, so "the scratch file is removed once created" holds only under that assumption.
- `Strings.Base` follows `path.Base` only for paths that do not end in '/'. The empty path and trailing slashes are not modelled. A trailing-slash path naming a directory would open successfully; `os.Create` would then truncate the file /tmp/<directory name>, `io.Copy` would fail, and the deferred `os.Remove` would delete that file. The model does not cover that run.
- `Injector.ScratchPath` does not clean the path as `path.Join` does (api.go:247). For a base name `.` or `..`, Go's scratch path is `/tmp` or `/`, where the model gives `/tmp/.` or `/tmp/..`.
- Strings are sequences of characters, where Go strings are sequences of bytes. Lengths and slices that count bytes in Go count characters here. For example, with `guestproperty` output `a b é`, Go's `ip[1:len(ip)-1]` (api.go:157-158) slices the two bytes of `é` and returns an empty address with no error. The model finds that token too short and `GetVmIp` panics. The `Tool` oracle also cannot return stdout that is not valid text.
- InjectSSHKey can leave the image empty. If writing the image back fails after `os.Create` truncated it, the image is left empty. The code does this, so `RewriteImage` models it: a failed write-back leaves the image empty.
- The handlers' `req.Plan.Get`/`req.State.Get` and `resp.State.Set` plumbing is left out. So are the framework's own diagnostics and `tflog`. The model starts from a decoded `ResourceModel`, and `state` is what the handler writes. On a Read error, no state is written and the framework keeps the prior one.
- Metadata, Schema, Configure and ImportState of the resource, and the provider definition in `provider.go`, are framework wiring. They are not part of this model.
- The `NetworkType` constants (api.go:33-40) are unused by the core. They are not modelled, including the value "nostonly" given to `Hostonly`.
- Integer widths are not modelled. Memory and CPU counts are unbounded integers, while the source uses `int64`.

## Findings

| source | as written | input that shows it | evidently intended | confidence | as-written member | corrected member |
|---|---|---|---|---|---|---|
| internal/provider/virtualbox_vm_resource.go:139-140 | after a failed step, the rollback calls `err.Error()` on DestroyVM's result even when it is nil | CreateVM fails and the following DestroyVM succeeds | report the destroy error only when there is one, and return | high, not executed | VmResource.RollbackPanicsAfterSuccessfulDestroy | VmResource.CreateReportingRollback |
| internal/virtualbox_api/api.go:246-260 | the scratch path `/tmp/<base name>` equals the image path when the image already sits directly under /tmp; `os.Create` truncates the image and the deferred `os.Remove` deletes it | image `/tmp/disk.vmdk`: when virt-sysprep then fails on the emptied copy, InjectSSHKey returns its error and the image is gone; if every step succeeds, it returns nil and the image is still gone | a scratch file distinct from the image | medium, not executed | Injector.TmpImageLostOnFailedSysprep | Injector.InjectSshKeyFixed |

=== FILE: guest_property.dfy ===
/** Reading the guest's IPv4 address out of `VBoxManage guestproperty
    enumerate`, whose output line looks like `<path> = '<value>' @ <timestamp>`. */
module GuestProperty {
  import opened Strings

  const IpProperty := "/VirtualBox/GuestInfo/Net/0/V4/IP"

  /** GetVmIp indexes the third space-separated token and then slices it as
      [1 : len-1]; both need this much of the output or the code panics. */
  predicate IpOutputOk(out: string)
  {
    var tokens := Split(out, ' ');
    |tokens| >= 3 && |tokens[2]| >= 2
  }

  /** The third space-separated token without its first and last character. */
  function ExtractIp(out: string): (ip: string)
    requires IpOutputOk(out)
    ensures ' ' !in ip
    // the token is one character, the address, and one more character
    ensures var t := Split(out, ' ')[2]; t == [t[0]] + ip + [t[|t| - 1]]
  {
    var token := Split(out, ' ')[2];
    assert token == [token[0]] + token[1..|token| - 1] + [token[|token| - 1]];
    token[1..|token| - 1]
  }

  /** For a line `P = 'V' @ T` where P and V contain no space, the address is
      exactly V; T is arbitrary (it may hold spaces and the final newline). */
  lemma PropertyLineGivesValue(path: string, v: string, stamp: string)
    requires ' ' !in path && ' ' !in v
    ensures var out := path + " = '" + v + "' @ " + stamp;
            IpOutputOk(out) && ExtractIp(out) == v
  {
    var out := path + " = '" + v + "' @ " + stamp;
    var quoted := "'" + v + "'";
    var tail := "@" + [' '] + stamp;
    assert out == path + [' '] + ("=" + [' '] + (quoted + [' '] + tail));
    assert ' ' !in quoted;
    SplitAfterFirst(path, ' ', "=" + [' '] + (quoted + [' '] + tail));
    SplitAfterFirst("=", ' ', quoted + [' '] + tail);
    SplitAfterFirst(quoted, ' ', tail);
    assert Split(out, ' ')[2] == quoted;
    assert quoted[1..|quoted| - 1] == v;
  }

  /** The sample line from the source's own comment yields 192.168.1.157. */
  lemma SampleOutput()
    ensures var out := IpProperty + " = '" + "192.168.1.157" + "' @ " + "2023-02-04T21:42:09.082Z\n";
            IpOutputOk(out) && ExtractIp(out) == "192.168.1.157"
  {
    PropertyLineGivesValue(IpProperty, "192.168.1.157", "2023-02-04T21:42:09.082Z\n");
  }

  /** Empty output (no address published yet) does not have three tokens. */
  lemma EmptyOutputNotOk()
    ensures !IpOutputOk("")
  {
    assert Split("", ' ') == [""];
  }
}

=== FILE: injector.dfy ===
/** InjectSSHKey over an abstract file store: copy the VM's disk image to a
    scratch file under /tmp, let virt-sysprep add the key to the copy, write
    the copy back over the image, and remove the scratch file on the way out. */
module Injector {
  import opened Outcomes
  import opened Strings
  import opened MachineReadable
  import opened VBoxManage

  type Path = string
  type Bytes = seq<bv8>

  /** The file system as the contents of each existing path. */
  type FileStore = map<Path, Bytes>

  /** The file-system calls of the pipeline that can report an error. */
  datatype IoStep = OpenImage | CreateScratch | CopyToScratch | SyncScratch | SeekScratch | CreateImage | CopyBack

  /** The steps at which the operating system reports an error, with its message. */
  type IoFaults = map<IoStep, string>

  /** The position of a file-system call in the pipeline; virt-sysprep runs
      at position 4, between the sync and the rewind. */
  function Position(s: IoStep): nat
  {
    match s
    case OpenImage => 0
    case CreateScratch => 1
    case CopyToScratch => 2
    case SyncScratch => 3
    case SeekScratch => 5
    case CreateImage => 6
    case CopyBack => 7
  }

  /** No file-system call before position `k` fails. */
  predicate NoFaultBefore(faults: IoFaults, k: nat)
  {
    forall s :: s in faults ==> Position(s) >= k
  }

  /** The successful file-system effects, in the order they happen. */
  datatype FsEvent =
    | Opened(path: Path)           // os.Open, read only
    | Created(path: Path)          // os.Create: created or truncated, open for writing
    | Copied(src: Path, dst: Path) // io.Copy of the whole file
    | Synced(path: Path)
    | Customized(path: Path)       // virt-sysprep exited successfully on the path
    | Rewound(path: Path)
    | Removed(path: Path)

  datatype Injection = Injection(out: Outcome<()>, fs: FileStore, events: seq<FsEvent>, issued: seq<Cmd>)

  /** The scratch file: the image's base name under /tmp. */
  function ScratchPath(image: Path): (p: Path)
    ensures |p| >= 5 && p[..5] == "/tmp/" && '/' !in p[5..]
    ensures |p| - 5 <= |image| && p[5..] == image[|image| - (|p| - 5)..]
    // and that suffix is the whole base name: a '/' precedes it unless it is the whole path
    ensures |p| - 5 < |image| ==> image[|image| - (|p| - 5) - 1] == '/'
  {
    "/tmp/" + Base(image)
  }

  /** The virt-sysprep invocation on the scratch copy. */
  function SysprepCmd(scratch: Path, user: string, key: string): Cmd
  {
    Cmd("virt-sysprep", ["-a", scratch, "--ssh-inject", user + ":file:" + key])
  }

  function NotFound(p: Path): string
  {
    "open " + p + ": no such file or directory"
  }

  /** No path other than the image and the scratch file changes. */
  ghost predicate OnlyImageAndScratchChange(fs: FileStore, fs': FileStore, image: Path, scratch: Path)
  {
    forall p :: p != image && p != scratch ==> (p in fs' <==> p in fs) && (p in fs ==> fs'[p] == fs[p])
  }

  /** The effects of a fully successful run, before the deferred removal. */
  function PipelineEvents(image: Path, scratch: Path): seq<FsEvent>
  {
    [Opened(image), Created(scratch), Copied(image, scratch), Synced(scratch),
     Customized(scratch), Rewound(scratch), Created(image), Copied(scratch, image)]
  }

  /** The events of a run that stopped after the first `k` pipeline effects:
      once the scratch file exists (k >= 2) its removal comes last. */
  predicate FollowsPipeline(events: seq<FsEvent>, image: Path, scratch: Path)
  {
    var plan := PipelineEvents(image, scratch);
    || (|events| <= 1 && events == plan[..|events|])
    || (3 <= |events| <= |plan| + 1 && events == plan[..|events| - 1] + [Removed(scratch)])
  }

  /** The events of a run that stopped after `k` pipeline effects, the scratch
      file having been created. */
  function EndedAfter(image: Path, scratch: Path, k: nat): (ev: seq<FsEvent>)
    requires 2 <= k <= 8
    ensures FollowsPipeline(ev, image, scratch)
    ensures Created(scratch) in ev
    ensures Customized(scratch) in ev <==> k >= 5
    ensures k >= 7 ==> Created(image) in ev
    ensures scratch != image && k < 7 ==> Created(image) !in ev
    ensures k >= 4 ==> Synced(scratch) in ev
  {
    var plan := PipelineEvents(image, scratch);
    var ev := plan[..k] + [Removed(scratch)];
    assert ev[1] == Created(scratch);
    assert k >= 4 ==> ev[3] == Synced(scratch);
    assert k >= 5 ==> ev[4] == Customized(scratch);
    assert k >= 7 ==> ev[6] == Created(image);
    assert k < 5 ==> ev == plan[..k] + [Removed(scratch)] && forall i :: 0 <= i < |ev| ==> ev[i] != Customized(scratch);
    ev
  }

  /** The pipeline of InjectSSHKey once the image path is known, with the
      scratch path as a parameter. */
  function RewriteImage(tool: Tool, issued: seq<Cmd>, faults: IoFaults, edit: Bytes -> Bytes,
                        fs: FileStore, image: Path, scratch: Path, user: string, key: string): (r: Injection)
    // the effects happen in the pipeline order, the removal of the scratch file last
    ensures FollowsPipeline(r.events, image, scratch)
    // nothing but the image and the scratch file changes
    ensures OnlyImageAndScratchChange(fs, r.fs, image, scratch)
    // once the scratch file was created it is removed, on every return path
    ensures Created(scratch) in r.events ==> scratch !in r.fs
    // before the scratch file exists nothing has changed
    ensures Created(scratch) !in r.events ==> r.fs == fs
    // a run that did not reopen the image for writing leaves it as it was
    ensures scratch != image && Created(image) !in r.events ==>
              (image in r.fs <==> image in fs) && (image in fs ==> r.fs[image] == fs[image])
    // with a distinct scratch file the image is never deleted
    ensures scratch != image && image in fs ==> image in r.fs
    // on success the image holds the customised copy
    ensures scratch != image && r.out.Ok? ==> image in fs && image in r.fs && r.fs[image] == edit(fs[image])
    // virt-sysprep is the only command, and success needs it to succeed
    ensures r.issued == issued || r.issued == issued + [SysprepCmd(scratch, user, key)]
    // virt-sysprep is issued only once the scratch copy was written and synced
    ensures r.issued != issued ==> Synced(scratch) in r.events
    ensures r.out.Ok? ==> r.issued == issued + [SysprepCmd(scratch, user, key)]
                          && Next(tool, issued, SysprepCmd(scratch, user, key)).Succeeded?
    ensures Customized(scratch) in r.events <==>
              (r.issued == issued + [SysprepCmd(scratch, user, key)] && Next(tool, issued, SysprepCmd(scratch, user, key)).Succeeded?)
    ensures !r.out.Panic?
  {
    var plan := PipelineEvents(image, scratch);
    if image !in fs then Injection(Err(NotFound(image)), fs, [], issued)
    else if OpenImage in faults then Injection(Err(faults[OpenImage]), fs, [], issued)
    else if CreateScratch in faults then Injection(Err(faults[CreateScratch]), fs, plan[..1], issued)
    else
      var original := fs[image];
      // os.Create truncates the scratch path, which may be the image itself
      var fs1 := fs[scratch := []];
      if CopyToScratch in faults then Injection(Err(faults[CopyToScratch]), fs1 - {scratch}, EndedAfter(image, scratch, 2), issued)
      else
        var fs2 := fs1[scratch := fs1[image]];
        if SyncScratch in faults then Injection(Err(faults[SyncScratch]), fs2 - {scratch}, EndedAfter(image, scratch, 3), issued)
        else
          var cmd := SysprepCmd(scratch, user, key);
          match Next(tool, issued, cmd)
          case Failed(e) => Injection(Err(e), fs2 - {scratch}, EndedAfter(image, scratch, 4), issued + [cmd])
          case Succeeded(_) =>
            var fs3 := fs2[scratch := edit(fs2[scratch])];
            if SeekScratch in faults then Injection(Err(faults[SeekScratch]), fs3 - {scratch}, EndedAfter(image, scratch, 5), issued + [cmd])
            else if CreateImage in faults then Injection(Err(faults[CreateImage]), fs3 - {scratch}, EndedAfter(image, scratch, 6), issued + [cmd])
            else
              var fs4 := fs3[image := []];
              if CopyBack in faults then Injection(Err(faults[CopyBack]), fs4 - {scratch}, EndedAfter(image, scratch, 7), issued + [cmd])
              else
                var fs5 := fs4[image := fs4[scratch]];
                Injection(Ok(()), fs5 - {scratch}, EndedAfter(image, scratch, 8), issued + [cmd])
  }

  /** The outcome of the pipeline: a missing image is reported as os.Open
      reports it, otherwise the error of the first failing step is returned,
      and a run in which nothing fails succeeds. */
  lemma RewriteImageOutcome(tool: Tool, issued: seq<Cmd>, faults: IoFaults, edit: Bytes -> Bytes,
                            fs: FileStore, image: Path, scratch: Path, user: string, key: string)
    ensures var r := RewriteImage(tool, issued, faults, edit, fs, image, scratch, user, key);
            image !in fs ==> r.out == Err(NotFound(image))
    ensures var r := RewriteImage(tool, issued, faults, edit, fs, image, scratch, user, key);
            forall s :: image in fs && s in faults && NoFaultBefore(faults, Position(s))
                        && (Position(s) < 4 || Next(tool, issued, SysprepCmd(scratch, user, key)).Succeeded?)
                        ==> r.out == Err(faults[s])
    ensures var r := RewriteImage(tool, issued, faults, edit, fs, image, scratch, user, key);
            image in fs && NoFaultBefore(faults, 4) && Next(tool, issued, SysprepCmd(scratch, user, key)).Failed?
            ==> r.out == Err(Next(tool, issued, SysprepCmd(scratch, user, key)).stderr)
    ensures var r := RewriteImage(tool, issued, faults, edit, fs, image, scratch, user, key);
            image in fs && faults == map[] && Next(tool, issued, SysprepCmd(scratch, user, key)).Succeeded?
            ==> r.out == Ok(())
  {
    var r := RewriteImage(tool, issued, faults, edit, fs, image, scratch, user, key);
    var cmd := SysprepCmd(scratch, user, key);
    assert image !in fs ==> r.out == Err(NotFound(image)) by {
    }
    assert image in fs && NoFaultBefore(faults, 4) && Next(tool, issued, cmd).Failed? ==> r.out == Err(Next(tool, issued, cmd).stderr) by {
    }
    assert image in fs && faults == map[] && Next(tool, issued, cmd).Succeeded? ==> r.out == Ok(()) by {
    }
    forall s | image in fs && s in faults && NoFaultBefore(faults, Position(s)) && (Position(s) < 4 || Next(tool, issued, cmd).Succeeded?)
      ensures r.out == Err(faults[s])
    {
      match s
      case OpenImage =>
      case CreateScratch =>
        assert OpenImage !in faults;
      case CopyToScratch =>
        assert OpenImage !in faults && CreateScratch !in faults;
      case SyncScratch =>
        assert OpenImage !in faults && CreateScratch !in faults && CopyToScratch !in faults;
      case SeekScratch =>
        assert OpenImage !in faults && CreateScratch !in faults && CopyToScratch !in faults && SyncScratch !in faults;
      case CreateImage =>
        assert OpenImage !in faults && CreateScratch !in faults && CopyToScratch !in faults && SyncScratch !in faults;
        assert SeekScratch !in faults;
      case CopyBack =>
        assert OpenImage !in faults && CreateScratch !in faults && CopyToScratch !in faults && SyncScratch !in faults;
        assert SeekScratch !in faults && CreateImage !in faults;
    }
  }

  /** A command list that is `pre`, possibly with one more command, starts with `pre`. */
  lemma KeepsPrefix(pre: seq<Cmd>, issued: seq<Cmd>, cmd: Cmd)
    requires issued == pre || issued == pre + [cmd]
    ensures |issued| >= |pre| && issued[..|pre|] == pre
  {
  }

  /** InjectSSHKey: read the descriptor for the image path, then rewrite the
      image through the scratch file `/tmp/<base name>`. */
  function InjectSshKey(tool: Tool, issued: seq<Cmd>, faults: IoFaults, edit: Bytes -> Bytes,
                        fs: FileStore, vmName: string, user: string, key: string): (r: Injection)
    ensures |r.issued| > |issued| && r.issued[..|issued| + 1] == issued + [ShowInfoCmd(vmName)]
    ensures !InfoFrom(Next(tool, issued, ShowInfoCmd(vmName))).Ok? ==>
              r.fs == fs && r.events == [] && r.issued == issued + [ShowInfoCmd(vmName)] &&
              (InfoFrom(Next(tool, issued, ShowInfoCmd(vmName))).Err? ==>
                 r.out == Err(InfoFrom(Next(tool, issued, ShowInfoCmd(vmName))).msg)) &&
              (InfoFrom(Next(tool, issued, ShowInfoCmd(vmName))).Panic? ==> r.out.Panic?)
    ensures InfoFrom(Next(tool, issued, ShowInfoCmd(vmName))).Ok? ==>
              var image := InfoFrom(Next(tool, issued, ShowInfoCmd(vmName))).value.vmdkPath;
              r == RewriteImage(tool, issued + [ShowInfoCmd(vmName)], faults, edit, fs, image, ScratchPath(image), user, key)
  {
    var info := GetVmInfo(tool, issued, vmName);
    assert info.issued == issued + [ShowInfoCmd(vmName)];
    assert info.out == InfoFrom(Next(tool, issued, ShowInfoCmd(vmName)));
    if !info.out.Ok? then
      Injection(if info.out.Err? then Err(info.out.msg) else Panic(info.out.reason), fs, [], info.issued)
    else
      var image := info.out.value.vmdkPath;
      var r := RewriteImage(tool, info.issued, faults, edit, fs, image, ScratchPath(image), user, key);
      KeepsPrefix(info.issued, r.issued, SysprepCmd(ScratchPath(image), user, key));
      r
  }

  /** The image is opened for writing (truncated) only after virt-sysprep
      succeeded on the scratch copy, so every earlier failure leaves it alone. */
  lemma ImageWrittenOnlyAfterCustomization(events: seq<FsEvent>, image: Path, scratch: Path, i: nat)
    requires FollowsPipeline(events, image, scratch) && scratch != image
    requires i < |events| && events[i] == Created(image)
    ensures Customized(scratch) in events[..i]
  {
    var plan := PipelineEvents(image, scratch);
    assert events[..|events| - 1] == plan[..|events| - 1];
    assert i == 6 by {
      assert forall j :: 0 <= j < |plan| && j != 6 ==> plan[j] != Created(image);
    }
    assert events[..i][4] == Customized(scratch);
  }

  /** The scratch path of an image that already sits directly under /tmp is
      the image itself. */
  lemma ScratchOfTmpImage(image: Path)
    requires |image| >= 5 && image[..5] == "/tmp/" && '/' !in image[5..]
    ensures ScratchPath(image) == image
  {
    var b := Base(image);
    var j := |image| - |b|;
    assert image[4] == '/';
    assert forall k :: j <= k < |image| ==> image[k] == b[k - j];
    assert forall k :: 5 <= k < |image| ==> image[k] == image[5..][k - 5];
    assert j == 5;
    assert image == "/tmp/" + b;
  }

  /** As written, for an image at /tmp/<name> the scratch file is the image:
      a run in which every step succeeds reports success and leaves the image
      deleted. */
  lemma TmpImageLostOnSuccess(tool: Tool, issued: seq<Cmd>, edit: Bytes -> Bytes, fs: FileStore,
                              image: Path, user: string, key: string)
    requires |image| >= 5 && image[..5] == "/tmp/" && '/' !in image[5..] && image in fs
    requires Next(tool, issued, SysprepCmd(image, user, key)).Succeeded?
    ensures var r := RewriteImage(tool, issued, map[], edit, fs, image, ScratchPath(image), user, key);
            r.out == Ok(()) && image !in r.fs
  {
    ScratchOfTmpImage(image);
  }

  /** As written, for an image at /tmp/<name> a run whose virt-sysprep call
      fails reports the tool's error and still leaves the image deleted: the
      image was truncated into itself and then removed as the scratch file. */
  lemma TmpImageLostOnFailedSysprep(tool: Tool, issued: seq<Cmd>, edit: Bytes -> Bytes, fs: FileStore,
                                    image: Path, user: string, key: string)
    requires |image| >= 5 && image[..5] == "/tmp/" && '/' !in image[5..] && image in fs
    requires Next(tool, issued, SysprepCmd(image, user, key)).Failed?
    ensures var r := RewriteImage(tool, issued, map[], edit, fs, image, ScratchPath(image), user, key);
            r.out == Err(Next(tool, issued, SysprepCmd(image, user, key)).stderr) && image !in r.fs
  {
    ScratchOfTmpImage(image);
  }

  /** The same for the concrete image /tmp/disk.vmdk. */
  lemma TmpImageExample(tool: Tool, edit: Bytes -> Bytes)
    requires Next(tool, [], SysprepCmd("/tmp/disk.vmdk", "root", "/root/.ssh/id.pub")).Succeeded?
    ensures var r := RewriteImage(tool, [], map[], edit, map["/tmp/disk.vmdk" := [1, 2, 3]],
                                  "/tmp/disk.vmdk", ScratchPath("/tmp/disk.vmdk"), "root", "/root/.ssh/id.pub");
            r.out == Ok(()) && "/tmp/disk.vmdk" !in r.fs
  {
    var image := "/tmp/disk.vmdk";
    assert image[..5] == "/tmp/";
    assert image[5..] == "disk.vmdk";
    TmpImageLostOnSuccess(tool, [], edit, map[image := [1, 2, 3]], image, "root", "/root/.ssh/id.pub");
  }

  /** A scratch path that is never the image: the usual one, or the base name
      with a leading underscore when the usual one would be the image. */
  function SafeScratchPath(image: Path): (p: Path)
    ensures p != image
    ensures |p| >= 5 && p[..5] == "/tmp/"
    ensures ScratchPath(image) != image ==> p == ScratchPath(image)
  {
    if ScratchPath(image) != image then ScratchPath(image)
    else
      var p := "/tmp/_" + Base(image);
      assert |p| == |ScratchPath(image)| + 1;
      p
  }

  /** InjectSSHKey with the scratch file kept apart from the image: the image
      is never lost, only rewritten on success, and then holds the
      customised copy. */
  function InjectSshKeyFixed(tool: Tool, issued: seq<Cmd>, faults: IoFaults, edit: Bytes -> Bytes,
                             fs: FileStore, vmName: string, user: string, key: string): (r: Injection)
    ensures |r.issued| > |issued| && r.issued[..|issued| + 1] == issued + [ShowInfoCmd(vmName)]
    ensures !InfoFrom(Next(tool, issued, ShowInfoCmd(vmName))).Ok? ==>
              r.fs == fs && !r.out.Ok? && r.issued == issued + [ShowInfoCmd(vmName)]
    ensures InfoFrom(Next(tool, issued, ShowInfoCmd(vmName))).Ok? ==>
              var image := InfoFrom(Next(tool, issued, ShowInfoCmd(vmName))).value.vmdkPath;
              && (image in fs ==> image in r.fs)
              && (r.out.Ok? ==> image in fs && image in r.fs && r.fs[image] == edit(fs[image]))
              && (Created(image) !in r.events ==> (image in fs ==> r.fs[image] == fs[image]))
              && OnlyImageAndScratchChange(fs, r.fs, image, SafeScratchPath(image))
              && r == RewriteImage(tool, issued + [ShowInfoCmd(vmName)], faults, edit, fs, image, SafeScratchPath(image), user, key)
  {
    var info := GetVmInfo(tool, issued, vmName);
    assert info.issued == issued + [ShowInfoCmd(vmName)];
    assert info.out == InfoFrom(Next(tool, issued, ShowInfoCmd(vmName)));
    if !info.out.Ok? then
      Injection(if info.out.Err? then Err(info.out.msg) else Panic(info.out.reason), fs, [], info.issued)
    else
      var image := info.out.value.vmdkPath;
      var scratch := SafeScratchPath(image);
      var r := RewriteImage(tool, info.issued, faults, edit, fs, image, scratch, user, key);
      assert scratch != image;
      KeepsPrefix(info.issued, r.issued, SysprepCmd(scratch, user, key));
      r
  }

  /** The corrected InjectSSHKey does its job for every image, one directly
      under /tmp included: once the descriptor is read, a run in which no
      step fails and virt-sysprep succeeds returns success, leaves the image
      holding the customised copy and removes its scratch file. */
  lemma FixedRunKeepsImage(tool: Tool, issued: seq<Cmd>, edit: Bytes -> Bytes, fs: FileStore,
                           vmName: string, user: string, key: string)
    requires InfoFrom(Next(tool, issued, ShowInfoCmd(vmName))).Ok?
    requires InfoFrom(Next(tool, issued, ShowInfoCmd(vmName))).value.vmdkPath in fs
    requires var image := InfoFrom(Next(tool, issued, ShowInfoCmd(vmName))).value.vmdkPath;
             Next(tool, issued + [ShowInfoCmd(vmName)], SysprepCmd(SafeScratchPath(image), user, key)).Succeeded?
    ensures var image := InfoFrom(Next(tool, issued, ShowInfoCmd(vmName))).value.vmdkPath;
            var r := InjectSshKeyFixed(tool, issued, map[], edit, fs, vmName, user, key);
            && r.out == Ok(())
            && image in r.fs && r.fs[image] == edit(fs[image])
            && SafeScratchPath(image) !in r.fs
  {
    var image := InfoFrom(Next(tool, issued, ShowInfoCmd(vmName))).value.vmdkPath;
    RewriteImageOutcome(tool, issued + [ShowInfoCmd(vmName)], map[], edit, fs, image, SafeScratchPath(image), user, key);
  }
}

=== FILE: machine_readable.dfy ===
/** The parser for the output of `VBoxManage showvminfo <vm> --machinereadable`:
    newline-separated `key=value` records, values wrapped in at most one
    layer of double quotes. */
module MachineReadable {
  import opened Outcomes
  import opened Strings

  /** The VM descriptor (VirtualboxVMInfo): every field is text as the tool
      printed it, empty when the dump did not mention it. */
  datatype VmInfo = VmInfo(id: string, name: string, state: string, vmdkPath: string, sshPort: string)

  const EmptyInfo := VmInfo("", "", "", "", "")

  /** The descriptor fields the parser fills, one per recognised key. */
  datatype Field = Name | Id | State | VmdkPath | SshPort

  /** The dump key that sets a field. */
  function KeyOf(f: Field): string
  {
    match f
    case Name => "name"
    case Id => "UUID"
    case State => "VMState"
    case VmdkPath => "\"SATA Controller-0-0\""
    case SshPort => "Forwarding(0)"
  }

  /** The field a key sets, if the parser knows the key. */
  function Recognise(key: string): (r: Option<Field>)
    ensures r.Some? ==> KeyOf(r.value) == key
    ensures r.None? ==> forall f: Field :: KeyOf(f) != key
  {
    if key == "name" then Some(Name)
    else if key == "UUID" then Some(Id)
    else if key == "VMState" then Some(State)
    else if key == "\"SATA Controller-0-0\"" then Some(VmdkPath)
    else if key == "Forwarding(0)" then Some(SshPort)
    else None
  }

  function Get(info: VmInfo, f: Field): string
  {
    match f
    case Name => info.name
    case Id => info.id
    case State => info.state
    case VmdkPath => info.vmdkPath
    case SshPort => info.sshPort
  }

  function Set(info: VmInfo, f: Field, v: string): (r: VmInfo)
    ensures Get(r, f) == v
    ensures forall g :: g != f ==> Get(r, g) == Get(info, g)
  {
    match f
    case Name => info.(name := v)
    case Id => info.(id := v)
    case State => info.(state := v)
    case VmdkPath => info.(vmdkPath := v)
    case SshPort => info.(sshPort := v)
  }

  /** Descriptors that agree on every field are equal. */
  lemma InfoExtensional(a: VmInfo, b: VmInfo)
    requires forall f :: Get(a, f) == Get(b, f)
    ensures a == b
  {
    assert Get(a, Name) == Get(b, Name);
    assert Get(a, Id) == Get(b, Id);
    assert Get(a, State) == Get(b, State);
    assert Get(a, VmdkPath) == Get(b, VmdkPath);
    assert Get(a, SshPort) == Get(b, SshPort);
  }

  /** One layer of double quotes around `s`, as the tool prints string values. */
  function Quote(s: string): string
  {
    "\"" + s + "\""
  }

  /** vmInfoValueToString: drops one leading and one trailing double quote,
      each only when present. */
  function Unquote(value: string): (r: string)
    ensures value == r || value == "\"" + r || value == r + "\"" || value == "\"" + r + "\""
    ensures |value| >= 2 && value[0] == '"' && value[|value| - 1] == '"' ==> value == "\"" + r + "\""
    ensures |value| >= 1 && value[0] == '"' && value[|value| - 1] != '"' ==> value == "\"" + r
    ensures |value| >= 1 && value[0] != '"' && value[|value| - 1] == '"' ==> value == r + "\""
    ensures (|value| == 0 || (value[0] != '"' && value[|value| - 1] != '"')) ==> r == value
    ensures value == "\"" ==> r == ""
  {
    if |value| == 0 then value
    else
      var v := if value[0] == '"' then value[1..] else value;
      if |v| > 0 && v[|v| - 1] == '"' then v[..|v| - 1] else v
  }

  /** Unquote inverts Quote, whatever `s` contains (quotes included). */
  lemma UnquoteQuote(s: string)
    ensures Unquote(Quote(s)) == s
  {
    var q := Quote(s);
    assert q[0] == '"' && q[|q| - 1] == '"';
  }

  /** The comma-separated fields of a Forwarding(0) value once unquoted. */
  function RuleFields(raw: string): seq<string>
  {
    Split(Unquote(raw), ',')
  }

  /** The Forwarding(0) branch indexes the third field from the end, which
      exists only when the value has at least three fields. */
  predicate ForwardingOk(raw: string)
  {
    |RuleFields(raw)| >= 3
  }

  /** The value a recognised line stores into its field. */
  function FieldValue(f: Field, raw: string): string
    requires f == SshPort ==> ForwardingOk(raw)
  {
    if f == SshPort then
      var fields := RuleFields(raw);
      fields[|fields| - 3]
    else Unquote(raw)
  }

  /** The field a dump line sets and its raw value: the line is cut at its
      first '='; a line without '=' or with an unknown key sets nothing. */
  function LineEntry(line: string): (e: Option<(Field, string)>)
    ensures e.Some? ==> line == KeyOf(e.value.0) + "=" + e.value.1
    ensures '=' !in line ==> e.None?
  {
    match Cut(line, '=')
    case None => None
    case Some((key, raw)) =>
      match Recognise(key)
      case None => None
      case Some(f) => Some((f, raw))
  }

  predicate SetsField(line: string, f: Field)
  {
    LineEntry(line).Some? && LineEntry(line).value.0 == f
  }

  /** A line the parser can process without an index-out-of-range panic. */
  predicate LineOk(line: string)
  {
    SetsField(line, SshPort) ==> ForwardingOk(LineEntry(line).value.1)
  }

  predicate LinesOk(lines: seq<string>)
  {
    forall i :: 0 <= i < |lines| ==> LineOk(lines[i])
  }

  predicate DumpOk(dump: string)
  {
    LinesOk(Split(dump, '\n'))
  }

  /** One iteration of the loop in GetVMInfo: a line changes the field its
      key names and no other. */
  function ApplyLine(info: VmInfo, line: string): (r: VmInfo)
    requires LineOk(line)
    ensures forall f :: SetsField(line, f) ==> Get(r, f) == FieldValue(f, LineEntry(line).value.1)
    ensures forall f :: !SetsField(line, f) ==> Get(r, f) == Get(info, f)
  {
    match LineEntry(line)
    case None => info
    case Some((f, raw)) => Set(info, f, FieldValue(f, raw))
  }

  /** The descriptor after the loop has processed `lines` in order, starting
      from the empty descriptor. */
  function ParseLines(lines: seq<string>): VmInfo
    requires LinesOk(lines)
  {
    if |lines| == 0 then EmptyInfo
    else ApplyLine(ParseLines(lines[..|lines| - 1]), lines[|lines| - 1])
  }

  /** Some line of `lines` sets `f` to `v`. */
  ghost predicate SetBySomeLine(lines: seq<string>, f: Field, v: string)
    requires LinesOk(lines)
  {
    exists j :: 0 <= j < |lines| && SetsField(lines[j], f) && v == FieldValue(f, LineEntry(lines[j]).value.1)
  }

  /** Every field of a parse is empty or holds the value of some line that
      sets it: the parser invents nothing. */
  lemma {:induction false} ParseLinesProvenance(lines: seq<string>)
    requires LinesOk(lines)
    ensures forall f :: Get(ParseLines(lines), f) == "" || SetBySomeLine(lines, f, Get(ParseLines(lines), f))
  {
    if |lines| > 0 {
      var prefix := lines[..|lines| - 1];
      assert LinesOk(prefix) by {
        assert forall j :: 0 <= j < |prefix| ==> prefix[j] == lines[j];
      }
      ParseLinesProvenance(prefix);
      assert ParseLines(lines) == ApplyLine(ParseLines(prefix), lines[|lines| - 1]);
      forall f | Get(ParseLines(lines), f) != ""
        ensures SetBySomeLine(lines, f, Get(ParseLines(lines), f))
      {
        if !SetsField(lines[|lines| - 1], f) {
          assert Get(ParseLines(lines), f) == Get(ParseLines(prefix), f);
          assert SetBySomeLine(prefix, f, Get(ParseLines(prefix), f));
          var j :| 0 <= j < |prefix| && SetsField(prefix[j], f)
                   && Get(ParseLines(prefix), f) == FieldValue(f, LineEntry(prefix[j]).value.1);
          assert prefix[j] == lines[j];
        }
      }
    }
  }

  /** The whole parse of a showvminfo dump. */
  function ParseDump(dump: string): VmInfo
    requires DumpOk(dump)
  {
    ParseLines(Split(dump, '\n'))
  }

  /** The parse of a whole dump invents nothing either: every field is empty
      or holds the value of some line of the dump that sets it. */
  lemma ParseDumpProvenance(dump: string)
    requires DumpOk(dump)
    ensures forall f :: Get(ParseDump(dump), f) == "" || SetBySomeLine(Split(dump, '\n'), f, Get(ParseDump(dump), f))
  {
    ParseLinesProvenance(Split(dump, '\n'));
  }

  /** Splitting at the first '=' only: the value may itself contain '=',
      and every recognised key maps to its field. */
  lemma LineEntryOfKeyValue(f: Field, raw: string)
    ensures LineEntry(KeyOf(f) + "=" + raw) == Some((f, raw))
  {
    var key := KeyOf(f);
    assert '=' !in key;
    assert Recognise(key) == Some(f);
    CutAtFirst(key, '=', raw);
    assert key + "=" + raw == key + ['='] + raw;
  }

  /** A `key=value` line whose key the parser does not know sets nothing. */
  lemma UnknownKeySetsNothing(key: string, raw: string)
    requires '=' !in key && Recognise(key).None?
    ensures LineEntry(key + "=" + raw).None?
  {
    CutAtFirst(key, '=', raw);
  }

  /** One step of the fold: the last line decides a field it sets and
      leaves every other field as the earlier lines left it. */
  lemma ParseLinesStep(lines: seq<string>, f: Field)
    requires LinesOk(lines) && |lines| > 0
    ensures LinesOk(lines[..|lines| - 1])
    ensures SetsField(lines[|lines| - 1], f) ==>
              Get(ParseLines(lines), f) == FieldValue(f, LineEntry(lines[|lines| - 1]).value.1)
    ensures !SetsField(lines[|lines| - 1], f) ==>
              Get(ParseLines(lines), f) == Get(ParseLines(lines[..|lines| - 1]), f)
  {
    var prefix := lines[..|lines| - 1];
    assert forall k :: 0 <= k < |prefix| ==> prefix[k] == lines[k];
  }

  /** When a key repeats, its last line decides the field. */
  lemma {:induction false} LastOccurrenceWins(lines: seq<string>, f: Field, j: nat)
    requires LinesOk(lines)
    requires j < |lines| && SetsField(lines[j], f)
    requires forall k :: j < k < |lines| ==> !SetsField(lines[k], f)
    ensures Get(ParseLines(lines), f) == FieldValue(f, LineEntry(lines[j]).value.1)
    decreases |lines|
  {
    var n := |lines|;
    var prefix := lines[..n - 1];
    ParseLinesStep(lines, f);
    if j < n - 1 {
      assert prefix[j] == lines[j];
      forall k | j < k < |prefix|
        ensures !SetsField(prefix[k], f)
      {
        assert prefix[k] == lines[k];
      }
      LastOccurrenceWins(prefix, f, j);
    }
  }

  /** A field no line sets stays empty. */
  lemma {:induction false} UnsetFieldStaysEmpty(lines: seq<string>, f: Field)
    requires LinesOk(lines)
    requires forall k :: 0 <= k < |lines| ==> !SetsField(lines[k], f)
    ensures Get(ParseLines(lines), f) == ""
    decreases |lines|
  {
    if |lines| > 0 {
      var prefix := lines[..|lines| - 1];
      assert LinesOk(prefix);
      assert forall k :: 0 <= k < |prefix| ==> prefix[k] == lines[k];
      UnsetFieldStaysEmpty(prefix, f);
    }
  }

  /** Inserting `line` at position k < |lines| and then dropping the last
      line is inserting it into the lines before the last one. */
  lemma InsertBeforeLast(lines: seq<string>, k: nat, line: string)
    requires k < |lines|
    ensures var longer := lines[..k] + [line] + lines[k..];
            var prefix := lines[..|lines| - 1];
            && longer[..|longer| - 1] == prefix[..k] + [line] + prefix[k..]
            && longer[|longer| - 1] == lines[|lines| - 1]
  {
    var prefix := lines[..|lines| - 1];
    assert lines[k..] == prefix[k..] + [lines[|lines| - 1]];
  }

  /** Forward compatibility: inserting a line the parser ignores (no '=',
      or a key it does not know) anywhere in the dump changes nothing. */
  lemma {:induction false} IgnoredLineIsHarmless(lines: seq<string>, k: nat, line: string)
    requires LinesOk(lines) && k <= |lines|
    requires LineEntry(line).None?
    ensures LinesOk(lines[..k] + [line] + lines[k..])
    ensures ParseLines(lines[..k] + [line] + lines[k..]) == ParseLines(lines)
    decreases |lines|
  {
    var longer := lines[..k] + [line] + lines[k..];
    forall i | 0 <= i < |longer|
      ensures LineOk(longer[i])
    {
      if i < k {
        assert longer[i] == lines[i];
      } else if i > k {
        assert longer[i] == lines[i - 1];
      }
    }
    if k == |lines| {
      assert longer[..|longer| - 1] == lines by {
        assert longer == lines + [line];
      }
      InfoExtensional(ParseLines(longer), ParseLines(lines));
    } else {
      var prefix := lines[..|lines| - 1];
      assert LinesOk(prefix) by {
        assert forall i :: 0 <= i < |prefix| ==> prefix[i] == lines[i];
      }
      IgnoredLineIsHarmless(prefix, k, line);
      InsertBeforeLast(lines, k, line);
      assert ParseLines(longer) == ApplyLine(ParseLines(prefix), lines[|lines| - 1]);
    }
  }

  /** A dump in which no line sets a field, the empty dump included, parses to
      the empty descriptor without an error. */
  lemma NoKnownKeysGivesEmptyInfo(dump: string)
    requires forall k :: 0 <= k < |Split(dump, '\n')| ==> LineEntry(Split(dump, '\n')[k]).None?
    ensures DumpOk(dump) && ParseDump(dump) == EmptyInfo
  {
    var lines := Split(dump, '\n');
    forall f: Field
      ensures Get(ParseLines(lines), f) == Get(EmptyInfo, f)
    {
      UnsetFieldStaysEmpty(lines, f);
    }
    InfoExtensional(ParseLines(lines), EmptyInfo);
  }

  /** The empty dump parses to the empty descriptor. */
  lemma EmptyDumpGivesEmptyInfo()
    ensures DumpOk("") && ParseDump("") == EmptyInfo
  {
    assert Split("", '\n') == [""];
    NoKnownKeysGivesEmptyInfo("");
  }

  /** A one-line dump `key="v"` for a key other than Forwarding(0) stores `v`
      with its quotes stripped exactly once, even when `v` contains '=' or '"'. */
  lemma QuotedValueParsed(f: Field, v: string)
    requires f != SshPort && '\n' !in v
    ensures var dump := KeyOf(f) + "=" + Quote(v);
            DumpOk(dump) && Get(ParseDump(dump), f) == v
  {
    var dump := KeyOf(f) + "=" + Quote(v);
    assert '\n' !in KeyOf(f);
    assert '\n' !in dump;
    assert Split(dump, '\n') == [dump];
    LineEntryOfKeyValue(f, Quote(v));
    UnquoteQuote(v);
    assert [dump][..0] == [];
  }
}

=== FILE: outcomes.dfy ===
/** Result shapes shared by the whole model. */
module Outcomes {

  /** An optional value: a null Terraform attribute, a key that is absent. */
  datatype Option<+T> = None | Some(value: T)

  /** What a call in the provider ends with: a value, a Go `error` carrying its
      message, or a Go runtime panic (index out of range, nil dereference),
      which terminates the provider process instead of returning. */
  datatype Outcome<+T> = Ok(value: T) | Err(msg: string) | Panic(reason: string)

  const IndexPanic := "runtime error: index out of range"
  const SlicePanic := "runtime error: slice bounds out of range"
  const NilPanic := "runtime error: invalid memory address or nil pointer dereference"
}

=== FILE: port_forwarding.dfy ===
/** The NAT rule ForwardLocalPort installs, and how the descriptor reads it back. */
module PortForwarding {
  import opened Strings
  import opened MachineReadable

  /** The one rule name the provider uses; re-adding it replaces the old rule. */
  const SshPortRuleName := "terraform_ssh_port_rule"
  const Loopback := "127.0.0.1"

  /** The range handed to the port probe. */
  const PortMin := 7000
  const PortMax := 8000

  /** The six fields of a rule: name, protocol, host address, host port,
      guest address (left empty), guest port. */
  function RuleFieldList(name: string, hostPort: int, guestPort: int): seq<string>
  {
    [name, "tcp", Loopback, IntToDecimal(hostPort), "", IntToDecimal(guestPort)]
  }

  /** The `--natpf1` argument: `name,tcp,127.0.0.1,hostPort,,guestPort`. */
  function NatRule(name: string, hostPort: int, guestPort: int): string
  {
    name + ",tcp," + Loopback + "," + IntToDecimal(hostPort) + ",," + IntToDecimal(guestPort)
  }

  /** The rule text is its six fields joined by commas. */
  lemma NatRuleIsJoin(name: string, hostPort: int, guestPort: int)
    ensures NatRule(name, hostPort, guestPort) == Join(RuleFieldList(name, hostPort, guestPort), ',')
  {
    var h := IntToDecimal(hostPort);
    var g := IntToDecimal(guestPort);
    JoinSix(name, "tcp", Loopback, h, "", g, ',');
    assert ",tcp," == [','] + "tcp" + [','];
    assert ",," == [','] + "" + [','];
    assert "," == [','];
  }

  /** A rule whose name has no comma splits back into exactly its six fields. */
  lemma NatRuleSplits(name: string, hostPort: int, guestPort: int)
    requires ',' !in name
    ensures Split(NatRule(name, hostPort, guestPort), ',') == RuleFieldList(name, hostPort, guestPort)
  {
    var fields := RuleFieldList(name, hostPort, guestPort);
    assert ',' !in fields[3] && ',' !in fields[5];
    assert ',' !in "tcp" && ',' !in Loopback;
    assert forall i :: 0 <= i < |fields| ==> ',' !in fields[i];
    NatRuleIsJoin(name, hostPort, guestPort);
    SplitJoin(fields, ',');
  }

  /** A Forwarding(0) line that echoes a rule with a comma-free name, in
      quotes, is parsed without panicking and sets the SSH port to the
      rule's host port. */
  lemma RuleLineSetsPort(name: string, hostPort: int, guestPort: int)
    requires ',' !in name
    ensures var line := KeyOf(SshPort) + "=" + Quote(NatRule(name, hostPort, guestPort));
            && SetsField(line, SshPort) && LineOk(line)
            && FieldValue(SshPort, LineEntry(line).value.1) == IntToDecimal(hostPort)
  {
    var rule := NatRule(name, hostPort, guestPort);
    LineEntryOfKeyValue(SshPort, Quote(rule));
    UnquoteQuote(rule);
    NatRuleSplits(name, hostPort, guestPort);
    assert RuleFields(Quote(rule)) == RuleFieldList(name, hostPort, guestPort);
  }

  /** With a newline-free name, the Forwarding(0) line echoing the rule is
      a dump of one line. */
  lemma RuleLineIsOneLine(name: string, hostPort: int, guestPort: int)
    requires '\n' !in name
    ensures var line := KeyOf(SshPort) + "=" + Quote(NatRule(name, hostPort, guestPort));
            Split(line, '\n') == [line]
  {
    var rule := NatRule(name, hostPort, guestPort);
    assert '\n' !in IntToDecimal(hostPort) && '\n' !in IntToDecimal(guestPort);
    assert '\n' !in rule;
    assert '\n' !in KeyOf(SshPort) + "=" + Quote(rule);
  }

  /** Round trip: a Forwarding(0) line that echoes the rule as written, in
      quotes, gives back the host port's decimal rendering as the SSH port. */
  lemma {:induction false} ForwardingRoundTrip(name: string, hostPort: int, guestPort: int)
    requires ',' !in name && '\n' !in name
    ensures var line := KeyOf(SshPort) + "=" + Quote(NatRule(name, hostPort, guestPort));
            DumpOk(line) && ParseDump(line).sshPort == IntToDecimal(hostPort)
  {
    var rule := NatRule(name, hostPort, guestPort);
    var line := KeyOf(SshPort) + "=" + Quote(rule);
    RuleLineIsOneLine(name, hostPort, guestPort);
    RuleLineSetsPort(name, hostPort, guestPort);
    assert [line][..0] == [];
  }

  /** The same round trip for the provider's own rule name, which has no comma. */
  lemma SshRuleRoundTrip(hostPort: int, guestPort: int)
    ensures var line := KeyOf(SshPort) + "=" + Quote(NatRule(SshPortRuleName, hostPort, guestPort));
            DumpOk(line) && ParseDump(line).sshPort == IntToDecimal(hostPort)
  {
    assert ',' !in SshPortRuleName && '\n' !in SshPortRuleName;
    ForwardingRoundTrip(SshPortRuleName, hostPort, guestPort);
  }

  /** Within a whole dump: when the last Forwarding(0) line echoes the rule,
      the descriptor's SSH port is the host port, whatever the other lines say. */
  lemma {:induction false} RoundTripInDump(lines: seq<string>, j: nat, hostPort: int, guestPort: int)
    requires LinesOk(lines) && j < |lines|
    requires lines[j] == KeyOf(SshPort) + "=" + Quote(NatRule(SshPortRuleName, hostPort, guestPort))
    requires forall k :: j < k < |lines| ==> !SetsField(lines[k], SshPort)
    ensures ParseLines(lines).sshPort == IntToDecimal(hostPort)
  {
    assert ',' !in SshPortRuleName;
    RuleLineSetsPort(SshPortRuleName, hostPort, guestPort);
    LastOccurrenceWins(lines, SshPort, j);
  }
}

=== FILE: strings.dfy ===
/** The few pieces of Go's `strings`, `fmt` and `path` packages the provider
    relies on, for one-character separators. */
module Strings {
  import opened Outcomes

  /** Position of the first occurrence of `c` in `s`. */
  function IndexOf(s: string, c: char): (k: nat)
    requires c in s
    ensures k < |s| && s[k] == c && c !in s[..k]
  {
    assert s == [s[0]] + s[1..];
    if s[0] == c then 0
    else
      var k := IndexOf(s[1..], c);
      assert s[..k + 1] == [s[0]] + s[1..][..k];
      1 + k
  }

  /** strings.Join: the parts with `c` between neighbours. */
  function Join(parts: seq<string>, c: char): string
  {
    if |parts| == 0 then ""
    else if |parts| == 1 then parts[0]
    else parts[0] + [c] + Join(parts[1..], c)
  }

  /** Joining one more leading part adds it and a separator in front. */
  lemma JoinPrepend(p: string, parts: seq<string>, c: char)
    requires |parts| >= 1
    ensures Join([p] + parts, c) == p + [c] + Join(parts, c)
  {
    assert ([p] + parts)[1..] == parts;
  }

  /** Six parts joined: each but the last followed by the separator. */
  lemma JoinSix(a: string, b: string, c: string, d: string, e: string, f: string, sep: char)
    ensures Join([a, b, c, d, e, f], sep) == a + [sep] + (b + [sep] + (c + [sep] + (d + [sep] + (e + [sep] + f))))
  {
    JoinPrepend(e, [f], sep);
    JoinPrepend(d, [e, f], sep);
    JoinPrepend(c, [d, e, f], sep);
    JoinPrepend(b, [c, d, e, f], sep);
    JoinPrepend(a, [b, c, d, e, f], sep);
  }

  /** strings.Split with a one-character separator: the pieces between the
      occurrences of `c`; the empty string splits into one empty piece. */
  function Split(s: string, c: char): (parts: seq<string>)
    ensures |parts| >= 1
    ensures forall i :: 0 <= i < |parts| ==> c !in parts[i]
    ensures Join(parts, c) == s
    decreases |s|
  {
    if c !in s then [s]
    else
      var k := IndexOf(s, c);
      var rest := Split(s[k + 1..], c);
      assert s == s[..k] + [c] + s[k + 1..];
      assert ([s[..k]] + rest)[1..] == rest;
      [s[..k]] + rest
  }

  /** The first `c` of `a + [c] + b` is the one after `a` when `a` has none. */
  lemma IndexOfAfter(a: string, c: char, b: string)
    requires c !in a
    ensures c in a + [c] + b
    ensures IndexOf(a + [c] + b, c) == |a|
  {
    var s := a + [c] + b;
    assert s[|a|] == c;
    IndexOfIsFirst(s, c, |a|);
    assert forall i :: 0 <= i < |a| ==> s[i] == a[i];
  }

  /** No occurrence of `c` comes before the one IndexOf finds. */
  lemma {:induction false} IndexOfIsFirst(s: string, c: char, j: nat)
    requires j < |s| && s[j] == c
    ensures IndexOf(s, c) <= j
    decreases j
  {
    if s[0] != c {
      assert s[1..][j - 1] == c;
      IndexOfIsFirst(s[1..], c, j - 1);
    }
  }

  /** Splitting stops at the first separator and carries on with the rest. */
  lemma SplitAfterFirst(a: string, c: char, b: string)
    requires c !in a
    ensures Split(a + [c] + b, c) == [a] + Split(b, c)
  {
    var s := a + [c] + b;
    IndexOfAfter(a, c, b);
    assert s[..|a|] == a;
    assert s[|a| + 1..] == b;
  }

  /** Split undoes Join whenever no part contains the separator. */
  lemma {:induction false} SplitJoin(parts: seq<string>, c: char)
    requires |parts| >= 1
    requires forall i :: 0 <= i < |parts| ==> c !in parts[i]
    ensures Split(Join(parts, c), c) == parts
    decreases |parts|
  {
    if |parts| > 1 {
      SplitAfterFirst(parts[0], c, Join(parts[1..], c));
      SplitJoin(parts[1..], c);
      assert [parts[0]] + parts[1..] == parts;
    }
  }

  /** strings.SplitN(s, sep, 2) with a one-character separator: the text
      before and after the first `c`, or None when `c` does not occur. */
  function Cut(s: string, c: char): (r: Option<(string, string)>)
    ensures r.None? <==> c !in s
    ensures r.Some? ==> c !in r.value.0 && s == r.value.0 + [c] + r.value.1
  {
    if c !in s then None
    else
      var k := IndexOf(s, c);
      assert s == s[..k] + [c] + s[k + 1..];
      Some((s[..k], s[k + 1..]))
  }

  /** Only the first separator cuts: `b` may contain further separators. */
  lemma CutAtFirst(a: string, c: char, b: string)
    requires c !in a
    ensures Cut(a + [c] + b, c) == Some((a, b))
  {
    var s := a + [c] + b;
    IndexOfAfter(a, c, b);
    assert s[..|a|] == a;
    assert s[|a| + 1..] == b;
  }

  predicate IsDigit(ch: char)
  {
    '0' <= ch <= '9'
  }

  function DigitChar(d: nat): (ch: char)
    requires d < 10
    ensures IsDigit(ch)
  {
    (48 + d) as char
  }

  /** fmt's `%d` of a non-negative number: its decimal numeral. */
  function NatToDecimal(n: nat): (s: string)
    ensures |s| >= 1
    ensures forall i :: 0 <= i < |s| ==> IsDigit(s[i])
    ensures s[0] == '0' <==> n == 0
    decreases n
  {
    if n < 10 then [DigitChar(n)]
    else NatToDecimal(n / 10) + [DigitChar(n % 10)]
  }

  /** fmt's `%d` of any integer: a minus sign before negative numbers. */
  function IntToDecimal(i: int): (s: string)
    ensures |s| >= 1
    ensures forall k :: 0 <= k < |s| ==> s[k] == '-' || IsDigit(s[k])
  {
    if i < 0 then "-" + NatToDecimal(-i) else NatToDecimal(i)
  }

  /** The number a string of decimal digits denotes. */
  function DecimalValue(s: string): nat
    requires forall i :: 0 <= i < |s| ==> IsDigit(s[i])
  {
    if |s| == 0 then 0
    else
      assert IsDigit(s[|s| - 1]);
      10 * DecimalValue(s[..|s| - 1]) + (s[|s| - 1] as int - '0' as int)
  }

  /** The rendering is the numeral of `n`: reading it back gives `n`. */
  lemma {:induction false} DecimalRoundTrip(n: nat)
    ensures DecimalValue(NatToDecimal(n)) == n
    decreases n
  {
    if n >= 10 {
      var s := NatToDecimal(n);
      assert s[..|s| - 1] == NatToDecimal(n / 10);
      DecimalRoundTrip(n / 10);
    }
  }

  /** path.Base for paths that do not end in '/': the text after the last '/'
      (the whole path when it has none). */
  function Base(p: string): (b: string)
    ensures '/' !in b
    ensures |b| <= |p| && b == p[|p| - |b|..]
    ensures |b| < |p| ==> p[|p| - |b| - 1] == '/'
    decreases |p|
  {
    if |p| == 0 || p[|p| - 1] == '/' then ""
    else
      var q := p[..|p| - 1];
      var b := Base(q);
      assert p[|p| - |b| - 1..] == q[|q| - |b|..] + [p[|p| - 1]];
      b + [p[|p| - 1]]
  }
}

=== FILE: vbox_manage.dfy ===
/** The lifecycle operations of the API package: each is a fixed sequence of
    external commands that stops at the first failing one and, for most,
    ends by re-reading the descriptor with `showvminfo`. */
module VBoxManage {
  import opened Outcomes
  import opened Strings
  import opened MachineReadable
  import opened GuestProperty
  import opened PortForwarding

  const Program := "VBoxManage"

  /** VMBootType: the `--type` given to `startvm`. */
  datatype BootType = Gui | Headless | Sdl | Separate

  function BootTypeName(b: BootType): string
  {
    match b
    case Gui => "gui"
    case Headless => "headless"
    case Sdl => "sdl"
    case Separate => "separate"
  }

  /** An external command as a program name and its argument vector. */
  datatype Cmd = Cmd(program: string, args: seq<string>)

  /** What running a command yields: its stdout on a zero exit status, its
      stderr otherwise. */
  datatype CmdResult = Succeeded(stdout: string) | Failed(stderr: string)

  /** The external tools as an oracle: the answer to the n-th command issued
      (counting from 0 over the whole session), so that the same command may
      answer differently once the VM has changed. */
  type Tool = (nat, Cmd) -> CmdResult

  /** An operation's outcome and every command issued so far, in order. */
  datatype Run<T> = Run(out: Outcome<T>, issued: seq<Cmd>)

  function ImportCmd(imagePath: string, vmName: string, memory: int, cpus: int): Cmd
  {
    Cmd(Program, ["import", imagePath, "--vsys=0", "--vmname=" + vmName,
                  "--memory=" + IntToDecimal(memory), "--cpus=" + IntToDecimal(cpus)])
  }

  function LocalhostReachableCmd(vmName: string): Cmd
  {
    Cmd(Program, ["modifyvm", vmName, "--nat-localhostreachable1", "on"])
  }

  function StartCmd(vmName: string, boot: BootType): Cmd
  {
    Cmd(Program, ["startvm", vmName, "--type=" + BootTypeName(boot)])
  }

  function PowerOffCmd(vmName: string): Cmd
  {
    Cmd(Program, ["controlvm", vmName, "poweroff"])
  }

  function UnregisterCmd(vmName: string): Cmd
  {
    Cmd(Program, ["unregistervm", vmName, "--delete", "--delete-all"])
  }

  function ShowInfoCmd(vmName: string): Cmd
  {
    Cmd(Program, ["showvminfo", vmName, "--machinereadable"])
  }

  function GuestIpCmd(id: string): Cmd
  {
    Cmd(Program, ["guestproperty", "enumerate", id, IpProperty])
  }

  function NicNatCmd(vmName: string): Cmd
  {
    Cmd(Program, ["modifyvm", vmName, "--nic1", "nat"])
  }

  function NatRuleCmd(vmName: string, rule: string): Cmd
  {
    Cmd(Program, ["modifyvm", vmName, "--natpf1", rule])
  }

  /** The answer the tool gives to the command about to be issued. */
  function Next(tool: Tool, issued: seq<Cmd>, cmd: Cmd): CmdResult
  {
    tool(|issued|, cmd)
  }

  /** The answer to the last command issued. */
  function LastResult(tool: Tool, issued: seq<Cmd>): CmdResult
    requires |issued| > 0
  {
    tool(|issued| - 1, issued[|issued| - 1])
  }

  /** `r` ran a prefix of `plan` after the commands `before`: every command
      but the last one issued succeeded; when the last one failed the outcome
      is exactly its stderr, and when it succeeded the whole plan was run. */
  predicate StopsAtFirstFailure<T>(tool: Tool, before: seq<Cmd>, plan: seq<Cmd>, r: Run<T>)
  {
    var n := |r.issued| - |before|;
    && 1 <= n <= |plan|
    && r.issued == before + plan[..n]
    && (forall i | |before| <= i < |r.issued| - 1 :: tool(i, r.issued[i]).Succeeded?)
    && match LastResult(tool, r.issued)
       case Failed(e) => r.out == Err(e)
       case Succeeded(_) => n == |plan|
  }

  /** Every command of `plan` ran and succeeded. */
  predicate Completed<T>(tool: Tool, before: seq<Cmd>, plan: seq<Cmd>, r: Run<T>)
  {
    |r.issued| == |before| + |plan| > 0 && LastResult(tool, r.issued).Succeeded?
  }

  /** A single command stops at the first failure when a failure is
      reported with its stderr. */
  lemma OneStep<T>(tool: Tool, issued: seq<Cmd>, cmd: Cmd, out: Outcome<T>)
    requires Next(tool, issued, cmd).Failed? ==> out == Err(Next(tool, issued, cmd).stderr)
    ensures StopsAtFirstFailure(tool, issued, [cmd], Run(out, issued + [cmd]))
  {
    assert (issued + [cmd])[|issued|] == cmd;
    assert [cmd][..1] == [cmd];
  }

  /** A successful first command followed by a run of the rest that stops at
      its first failure is a run of the whole plan that does. */
  lemma {:induction false} StopsAfterSuccess<T>(tool: Tool, issued: seq<Cmd>, steps: seq<Cmd>, r: Run<T>)
    requires |steps| >= 2 && Next(tool, issued, steps[0]).Succeeded?
    requires StopsAtFirstFailure(tool, issued + [steps[0]], steps[1..], r)
    ensures StopsAtFirstFailure(tool, issued, steps, r)
  {
    var issued1 := issued + [steps[0]];
    var n := |r.issued| - |issued1|;
    assert r.issued == issued + steps[..n + 1] by {
      assert [steps[0]] + steps[1..][..n] == steps[..n + 1];
    }
    assert r.issued[|issued|] == steps[0];
  }

  /** The descriptor a `showvminfo` answer yields: its stderr when it failed,
      a panic when a Forwarding(0) value has fewer than three fields, the
      parsed dump otherwise. */
  function InfoFrom(res: CmdResult): Outcome<VmInfo>
  {
    match res
    case Failed(e) => Err(e)
    case Succeeded(out) => if DumpOk(out) then Ok(ParseDump(out)) else Panic(IndexPanic)
  }

  /** GetVMInfo: one `showvminfo`, then the parse. */
  function GetVmInfo(tool: Tool, issued: seq<Cmd>, vmName: string): (r: Run<VmInfo>)
    ensures StopsAtFirstFailure(tool, issued, [ShowInfoCmd(vmName)], r)
    ensures r.out == InfoFrom(LastResult(tool, r.issued))
  {
    var cmd := ShowInfoCmd(vmName);
    OneStep(tool, issued, cmd, InfoFrom(Next(tool, issued, cmd)));
    Run(InfoFrom(Next(tool, issued, cmd)), issued + [cmd])
  }

  /** The `runGetOutput` / `if err != nil { return errors.New(stderr) }`
      pattern: issue `steps` in order and return the stderr of the first
      one that fails. */
  function RunSteps(tool: Tool, issued: seq<Cmd>, steps: seq<Cmd>): (r: Run<()>)
    requires |steps| >= 1
    ensures StopsAtFirstFailure(tool, issued, steps, r)
    ensures r.out.Ok? <==> LastResult(tool, r.issued).Succeeded?
    ensures !r.out.Panic?
    decreases |steps|
  {
    var issued1 := issued + [steps[0]];
    match Next(tool, issued, steps[0])
    case Failed(e) =>
      OneStep<()>(tool, issued, steps[0], Err(e));
      assert [steps[0]] == steps[..1];
      Run(Err(e), issued1)
    case Succeeded(_) =>
      if |steps| == 1 then
        OneStep(tool, issued, steps[0], Ok(()));
        assert [steps[0]] == steps;
        Run(Ok(()), issued1)
      else
        var r := RunSteps(tool, issued1, steps[1..]);
        StopsAfterSuccess(tool, issued, steps, r);
        r
  }

  /** The steps, then `showvminfo` on success; a failed step's stderr otherwise. */
  function ThenInfo(tool: Tool, pre: Run<()>, vmName: string): Run<VmInfo>
  {
    match pre.out
    case Ok(_) => GetVmInfo(tool, pre.issued, vmName)
    case Err(e) => Run(Err(e), pre.issued)
    case Panic(p) => Run(Panic(p), pre.issued)
  }

  /** Steps followed by `showvminfo` stop at the first failure of the whole
      plan, and after the whole plan the descriptor is the final dump's. */
  lemma StepsThenInfo(tool: Tool, issued: seq<Cmd>, steps: seq<Cmd>, vmName: string)
    requires |steps| >= 1
    ensures var r := ThenInfo(tool, RunSteps(tool, issued, steps), vmName);
            && StopsAtFirstFailure(tool, issued, steps + [ShowInfoCmd(vmName)], r)
            && (Completed(tool, issued, steps + [ShowInfoCmd(vmName)], r) ==> r.out == InfoFrom(LastResult(tool, r.issued)))
  {
    var pre := RunSteps(tool, issued, steps);
    var plan := steps + [ShowInfoCmd(vmName)];
    var r := ThenInfo(tool, pre, vmName);
    var n := |pre.issued| - |issued|;
    assert steps[..n] == plan[..n];
    if pre.out.Ok? {
      assert pre.issued == issued + steps;
      assert r.issued == issued + plan;
      assert plan[..|plan|] == plan;
      forall i | |issued| <= i < |r.issued| - 1
        ensures tool(i, r.issued[i]).Succeeded?
      {
        assert r.issued[i] == pre.issued[i];
      }
    }
  }

  function CreatePlan(imagePath: string, vmName: string, memory: int, cpus: int): seq<Cmd>
  {
    [ImportCmd(imagePath, vmName, memory, cpus), LocalhostReachableCmd(vmName), ShowInfoCmd(vmName)]
  }

  /** CreateVM: import, make the host reachable over NAT, read the descriptor. */
  function CreateVm(tool: Tool, issued: seq<Cmd>, imagePath: string, vmName: string, memory: int, cpus: int): (r: Run<VmInfo>)
    ensures StopsAtFirstFailure(tool, issued, CreatePlan(imagePath, vmName, memory, cpus), r)
    ensures Completed(tool, issued, CreatePlan(imagePath, vmName, memory, cpus), r)
            ==> r.out == InfoFrom(LastResult(tool, r.issued))
  {
    var steps := [ImportCmd(imagePath, vmName, memory, cpus), LocalhostReachableCmd(vmName)];
    StepsThenInfo(tool, issued, steps, vmName);
    ThenInfo(tool, RunSteps(tool, issued, steps), vmName)
  }

  function StartPlan(vmName: string, boot: BootType): seq<Cmd>
  {
    [StartCmd(vmName, boot), ShowInfoCmd(vmName)]
  }

  /** StartVM: `startvm --type=<boot>`, then read the descriptor. */
  function StartVm(tool: Tool, issued: seq<Cmd>, vmName: string, boot: BootType): (r: Run<VmInfo>)
    ensures StopsAtFirstFailure(tool, issued, StartPlan(vmName, boot), r)
    ensures Completed(tool, issued, StartPlan(vmName, boot), r) ==> r.out == InfoFrom(LastResult(tool, r.issued))
  {
    StepsThenInfo(tool, issued, [StartCmd(vmName, boot)], vmName);
    ThenInfo(tool, RunSteps(tool, issued, [StartCmd(vmName, boot)]), vmName)
  }

  function StopPlan(vmName: string): seq<Cmd>
  {
    [PowerOffCmd(vmName), ShowInfoCmd(vmName)]
  }

  /** StopVM: a forced `controlvm poweroff`, then read the descriptor. */
  function StopVm(tool: Tool, issued: seq<Cmd>, vmName: string): (r: Run<VmInfo>)
    ensures StopsAtFirstFailure(tool, issued, StopPlan(vmName), r)
    ensures Completed(tool, issued, StopPlan(vmName), r) ==> r.out == InfoFrom(LastResult(tool, r.issued))
  {
    StepsThenInfo(tool, issued, [PowerOffCmd(vmName)], vmName);
    ThenInfo(tool, RunSteps(tool, issued, [PowerOffCmd(vmName)]), vmName)
  }

  /** DestroyVM: `unregistervm --delete --delete-all`; only success or the
      tool's stderr comes back, never a descriptor. */
  function DestroyVm(tool: Tool, issued: seq<Cmd>, vmName: string): (r: Run<()>)
    ensures StopsAtFirstFailure(tool, issued, [UnregisterCmd(vmName)], r)
    ensures r.out.Ok? <==> LastResult(tool, r.issued).Succeeded?
  {
    RunSteps(tool, issued, [UnregisterCmd(vmName)])
  }

  /** GetVmIp: the address from `guestproperty enumerate`; output too short
      for the token indexing and slicing panics. */
  function GetVmIp(tool: Tool, issued: seq<Cmd>, info: VmInfo): (r: Run<string>)
    ensures StopsAtFirstFailure(tool, issued, [GuestIpCmd(info.id)], r)
    ensures LastResult(tool, r.issued).Succeeded? ==>
              var out := LastResult(tool, r.issued).stdout;
              (IpOutputOk(out) ==> r.out == Ok(ExtractIp(out))) && (!IpOutputOk(out) ==> r.out.Panic?)
  {
    var cmd := GuestIpCmd(info.id);
    var o: Outcome<string> :=
      match Next(tool, issued, cmd)
      case Failed(e) => Err(e)
      case Succeeded(out) =>
        if IpOutputOk(out) then Ok(ExtractIp(out))
        else Panic(if |Split(out, ' ')| < 3 then IndexPanic else SlicePanic);
    OneStep(tool, issued, cmd, o);
    assert (issued + [cmd])[|issued|] == cmd;
    Run(o, issued + [cmd])
  }

  /** A host port handed out by the port probe: within the configured range. */
  type ProbePort = p: int | PortMin <= p <= PortMax witness PortMin

  /** The answer of the port probe (packer's ListenRangeConfig.Listen): a port
      that was free when probed, or the reason none was found. */
  datatype Probe = Allocated(port: ProbePort) | Exhausted(reason: string)

  const PortErrorPrefix := "Error creating port forwarding rule: "

  function ForwardPlan(vmName: string, hostPort: int, guestPort: int): seq<Cmd>
  {
    [NicNatCmd(vmName), NatRuleCmd(vmName, NatRule(SshPortRuleName, hostPort, guestPort)), ShowInfoCmd(vmName)]
  }

  /** ForwardLocalPort: probe a host port, switch NIC 1 to NAT, add the
      `terraform_ssh_port_rule` loopback rule to the guest port, read the
      descriptor. */
  function ForwardLocalPort(tool: Tool, issued: seq<Cmd>, probe: Probe, vmName: string, guestPort: int): (r: Run<VmInfo>)
    ensures probe.Exhausted? ==> r.issued == issued && r.out == Err(PortErrorPrefix + probe.reason)
    ensures probe.Allocated? ==> StopsAtFirstFailure(tool, issued, ForwardPlan(vmName, probe.port, guestPort), r)
    ensures probe.Allocated? && Completed(tool, issued, ForwardPlan(vmName, probe.port, guestPort), r)
            ==> r.out == InfoFrom(LastResult(tool, r.issued))
    ensures |r.issued| >= |issued| + 2 ==>
              probe.Allocated? && PortMin <= probe.port <= PortMax &&
              r.issued[|issued| + 1] == NatRuleCmd(vmName, NatRule(SshPortRuleName, probe.port, guestPort))
  {
    match probe
    case Exhausted(reason) => Run(Err(PortErrorPrefix + reason), issued)
    case Allocated(port) =>
      var steps := [NicNatCmd(vmName), NatRuleCmd(vmName, NatRule(SshPortRuleName, port, guestPort))];
      assert steps + [ShowInfoCmd(vmName)] == ForwardPlan(vmName, port, guestPort);
      StepsThenInfo(tool, issued, steps, vmName);
      ThenInfo(tool, RunSteps(tool, issued, steps), vmName)
  }

  /** A VM that does not exist: showvminfo's stderr comes back as the error,
      not an empty descriptor. */
  lemma GetVmInfoReportsToolError(tool: Tool, issued: seq<Cmd>, vmName: string)
    requires Next(tool, issued, ShowInfoCmd(vmName)).Failed?
    ensures GetVmInfo(tool, issued, vmName).out == Err(Next(tool, issued, ShowInfoCmd(vmName)).stderr)
  {
  }

  /** An empty dump is a valid answer: an empty descriptor and no error. */
  lemma GetVmInfoOfEmptyDump(tool: Tool, issued: seq<Cmd>, vmName: string)
    requires Next(tool, issued, ShowInfoCmd(vmName)) == Succeeded("")
    ensures GetVmInfo(tool, issued, vmName).out == Ok(EmptyInfo)
  {
    EmptyDumpGivesEmptyInfo();
  }

  /** When the import fails nothing else is issued: no modifyvm, no showvminfo. */
  lemma CreateVmImportFailure(tool: Tool, issued: seq<Cmd>, imagePath: string, vmName: string, memory: int, cpus: int)
    requires Next(tool, issued, ImportCmd(imagePath, vmName, memory, cpus)).Failed?
    ensures var r := CreateVm(tool, issued, imagePath, vmName, memory, cpus);
            r.issued == issued + [ImportCmd(imagePath, vmName, memory, cpus)] &&
            r.out == Err(Next(tool, issued, ImportCmd(imagePath, vmName, memory, cpus)).stderr)
  {
  }

  /** End to end: when the tool echoes the installed rule in the next
      showvminfo, the descriptor reports the probed port as the SSH port. */
  lemma ForwardLocalPortReportsProbedPort(tool: Tool, issued: seq<Cmd>, port: ProbePort, vmName: string, guestPort: int)
    requires Next(tool, issued, NicNatCmd(vmName)).Succeeded?
    requires Next(tool, issued + [NicNatCmd(vmName)], NatRuleCmd(vmName, NatRule(SshPortRuleName, port, guestPort))).Succeeded?
    requires tool(|issued| + 2, ShowInfoCmd(vmName))
             == Succeeded(KeyOf(SshPort) + "=" + Quote(NatRule(SshPortRuleName, port, guestPort)))
    ensures var r := ForwardLocalPort(tool, issued, Allocated(port), vmName, guestPort);
            r.out.Ok? && r.out.value.sshPort == IntToDecimal(port)
  {
    SshRuleRoundTrip(port, guestPort);
    var r := ForwardLocalPort(tool, issued, Allocated(port), vmName, guestPort);
    assert r.issued == issued + ForwardPlan(vmName, port, guestPort);
  }
}

=== FILE: vm_resource.dfy ===
/** The virtualbox_vm resource: the order in which Create, Read, Update and
    Delete call the API, the default SSH user, and the diagnostics a failed
    Create reports after trying to roll back. API calls are oracle answers. */
module VmResource {
  import opened Outcomes
  import opened MachineReadable
  import opened VBoxManage

  /** VirtualboxVMResourceModel; a null optional attribute is None. */
  datatype ResourceModel = ResourceModel(
    id: string, name: string, image: string,
    sshUser: Option<string>, sshKey: Option<string>,
    cpu: int, memory: int, sshPort: string)

  /** The API package's entry points as the resource calls them. */
  datatype ApiCall =
    | CreateVmCall(image: string, vmName: string, memory: int, cpus: int)
    | ForwardLocalPortCall(vm: string, guestPort: int)
    | InjectSshKeyCall(vm: string, user: string, key: string)
    | StartVmCall(vm: string, boot: BootType)
    | DestroyVmCall(vm: string)
    | GetVmInfoCall(vm: string)

  /** The answers of the API package, one oracle per entry point; error-only
      calls answer Ok(()) for a nil error. */
  datatype Api = Api(
    createVm: (string, string, int, int) -> Outcome<VmInfo>,
    forwardLocalPort: (string, int) -> Outcome<VmInfo>,
    injectSshKey: (string, string, string) -> Outcome<()>,
    startVm: (string, BootType) -> Outcome<VmInfo>,
    destroyVm: string -> Outcome<()>,
    getVmInfo: string -> Outcome<VmInfo>)

  /** How a call ended, without its value. */
  function Status(api: Api, c: ApiCall): Outcome<()>
  {
    var o: Outcome<()> :=
      match c
      case CreateVmCall(i, n, m, p) => Drop(api.createVm(i, n, m, p))
      case ForwardLocalPortCall(v, g) => Drop(api.forwardLocalPort(v, g))
      case InjectSshKeyCall(v, u, k) => api.injectSshKey(v, u, k)
      case StartVmCall(v, b) => Drop(api.startVm(v, b))
      case DestroyVmCall(v) => api.destroyVm(v)
      case GetVmInfoCall(v) => Drop(api.getVmInfo(v));
    o
  }

  function Drop(o: Outcome<VmInfo>): Outcome<()>
  {
    match o
    case Ok(_) => Ok(())
    case Err(e) => Err(e)
    case Panic(p) => Panic(p)
  }

  /** diag.AddError(summary, detail). */
  datatype Diagnostic = Error(summary: string, detail: string)

  /** A handler either returns or dies in a Go panic. */
  datatype Completion = Returned | Panicked(reason: string)

  /** What a handler leaves behind: the diagnostics it added, the state it
      wrote (None: it wrote none), and the API calls it made, in order. */
  datatype Response = Response(completion: Completion, diags: seq<Diagnostic>, state: Option<ResourceModel>, calls: seq<ApiCall>)

  const DefaultSshUser := "root"
  const SshGuestPort := 22
  const DestroyError := "Error destroying vm"

  /** The step-specific summary Create reports when that step fails. */
  function FailureSummary(c: ApiCall): string
  {
    match c
    case CreateVmCall(_, _, _, _) => "Error creating new vm"
    case ForwardLocalPortCall(_, _) => "Error forwarding local port"
    case InjectSshKeyCall(_, _, _) => "Error injecting ssh key"
    case StartVmCall(_, _) => "Error starting new vm"
    case DestroyVmCall(_) => DestroyError
    case GetVmInfoCall(_) => "Error getting vm info"
  }

  function SshUserOf(plan: ResourceModel): string
  {
    match plan.sshUser
    case Some(u) => u
    case None => DefaultSshUser
  }

  /** After a failed step: report it, destroy the VM by its configured name,
      and report the destroy error. As written the last report reads
      `err.Error()` even when the destroy succeeded and `err` is nil, which
      panics; `onlyFailures` reports it only when there is an error. */
  function Rollback(api: Api, plan: ResourceModel, calls: seq<ApiCall>, failed: ApiCall, detail: string, onlyFailures: bool): (r: Response)
    ensures r.state.None? && r.calls == calls + [DestroyVmCall(plan.name)]
    ensures 1 <= |r.diags| <= 2 && r.diags[0] == Error(FailureSummary(failed), detail)
    ensures |r.diags| == 2 <==> api.destroyVm(plan.name).Err?
    ensures |r.diags| == 2 ==> r.diags[1] == Error(DestroyError, api.destroyVm(plan.name).msg)
    ensures r.completion.Returned? <==> api.destroyVm(plan.name).Err? || (api.destroyVm(plan.name).Ok? && onlyFailures)
    ensures r.completion.Panicked? && api.destroyVm(plan.name).Ok? ==> r.completion.reason == NilPanic
  {
    var diags := [Error(FailureSummary(failed), detail)];
    var calls' := calls + [DestroyVmCall(plan.name)];
    match api.destroyVm(plan.name)
    case Err(e) => Response(Returned, diags + [Error(DestroyError, e)], None, calls')
    case Ok(_) => if onlyFailures then Response(Returned, diags, None, calls') else Response(Panicked(NilPanic), diags, None, calls')
    case Panic(p) => Response(Panicked(p), diags, None, calls')
  }

  /** Start the VM headless and save its id and SSH port into the state. */
  function StartAndSave(api: Api, plan: ResourceModel, calls: seq<ApiCall>, vm: string, onlyFailures: bool): (r: Response)
    ensures r.calls == calls + [StartVmCall(vm, Headless)] || r.calls == calls + [StartVmCall(vm, Headless), DestroyVmCall(plan.name)]
    ensures api.startVm(vm, Headless).Ok? ==>
              r == Response(Returned, [], Some(plan.(id := api.startVm(vm, Headless).value.id,
                                                     sshPort := api.startVm(vm, Headless).value.sshPort)),
                            calls + [StartVmCall(vm, Headless)])
    ensures api.startVm(vm, Headless).Panic? ==> r == Response(Panicked(api.startVm(vm, Headless).reason), [], None, calls + [StartVmCall(vm, Headless)])
    ensures api.startVm(vm, Headless).Err? ==>
              r == Rollback(api, plan, calls + [StartVmCall(vm, Headless)], StartVmCall(vm, Headless), api.startVm(vm, Headless).msg, onlyFailures)
  {
    var start := StartVmCall(vm, Headless);
    match api.startVm(vm, Headless)
    case Panic(p) => Response(Panicked(p), [], None, calls + [start])
    case Err(e) => Rollback(api, plan, calls + [start], start, e, onlyFailures)
    case Ok(info) => Response(Returned, [], Some(plan.(id := info.id, sshPort := info.sshPort)), calls + [start])
  }

  /** The body of Create, with the rollback report as written or corrected. */
  function CreateWith(api: Api, plan: ResourceModel, onlyFailures: bool): Response
  {
    var create := CreateVmCall(plan.image, plan.name, plan.memory, plan.cpu);
    match api.createVm(plan.image, plan.name, plan.memory, plan.cpu)
    case Panic(p) => Response(Panicked(p), [], None, [create])
    case Err(e) => Rollback(api, plan, [create], create, e, onlyFailures)
    case Ok(created) =>
      if plan.sshKey.None? then StartAndSave(api, plan, [create], created.id, onlyFailures)
      else
        var forward := ForwardLocalPortCall(created.id, SshGuestPort);
        match api.forwardLocalPort(created.id, SshGuestPort)
        case Panic(p) => Response(Panicked(p), [], None, [create, forward])
        case Err(e) => Rollback(api, plan, [create, forward], forward, e, onlyFailures)
        case Ok(forwarded) =>
          var inject := InjectSshKeyCall(forwarded.id, SshUserOf(plan), plan.sshKey.value);
          match api.injectSshKey(forwarded.id, SshUserOf(plan), plan.sshKey.value)
          case Panic(p) => Response(Panicked(p), [], None, [create, forward, inject])
          case Err(e) => Rollback(api, plan, [create, forward, inject], inject, e, onlyFailures)
          case Ok(_) => StartAndSave(api, plan, [create, forward, inject], forwarded.id, onlyFailures)
  }

  /** The kinds of call, for stating their order. */
  datatype CallKind = KCreate | KForward | KInject | KStart | KDestroy | KGetInfo

  function KindOf(c: ApiCall): CallKind
  {
    match c
    case CreateVmCall(_, _, _, _) => KCreate
    case ForwardLocalPortCall(_, _) => KForward
    case InjectSshKeyCall(_, _, _) => KInject
    case StartVmCall(_, _) => KStart
    case DestroyVmCall(_) => KDestroy
    case GetVmInfoCall(_) => KGetInfo
  }

  function Kinds(calls: seq<ApiCall>): (ks: seq<CallKind>)
    ensures |ks| == |calls| && forall i :: 0 <= i < |calls| ==> ks[i] == KindOf(calls[i])
  {
    seq(|calls|, i requires 0 <= i < |calls| => KindOf(calls[i]))
  }

  /** The steps of a successful Create: forwarding and key injection only
      when an SSH key is configured. */
  function CreateSteps(withKey: bool): seq<CallKind>
  {
    if withKey then [KCreate, KForward, KInject, KStart] else [KCreate, KStart]
  }

  /** Which call may come right after `prev` in Create, and with which
      arguments: CreateVM, then ForwardLocalPort and InjectSSHKey when an SSH
      key is set, then StartVM headless; a rollback destroy by name may follow
      any step. */
  predicate MayFollow(plan: ResourceModel, prev: ApiCall, next: ApiCall)
  {
    match next
    case DestroyVmCall(vm) => vm == plan.name
    case ForwardLocalPortCall(_, port) => prev.CreateVmCall? && plan.sshKey.Some? && port == SshGuestPort
    case InjectSshKeyCall(_, user, key) =>
      prev.ForwardLocalPortCall? && plan.sshKey.Some? && user == SshUserOf(plan) && key == plan.sshKey.value
    case StartVmCall(_, boot) =>
      boot == Headless && (if plan.sshKey.Some? then prev.InjectSshKeyCall? else prev.CreateVmCall?)
    case _ => false
  }

  /** The order Create calls the API in, and the arguments it passes. */
  predicate CreateCallsWellOrdered(plan: ResourceModel, calls: seq<ApiCall>)
  {
    && |calls| >= 1
    && calls[0] == CreateVmCall(plan.image, plan.name, plan.memory, plan.cpu)
    && (forall i | 0 < i < |calls| :: MayFollow(plan, calls[i - 1], calls[i]))
    && (forall i | 0 <= i < |calls| - 1 :: !calls[i].DestroyVmCall?)
  }

  function IdOf(o: Outcome<VmInfo>): string
  {
    if o.Ok? then o.value.id else ""
  }

  /** The VM id the step after `c` is meant to address: the id in the
      descriptor CreateVM or ForwardLocalPort returned, or, after
      InjectSSHKey (which returns none), the id it was given. */
  function CarriedId(api: Api, c: ApiCall): string
  {
    match c
    case CreateVmCall(i, n, m, p) => IdOf(api.createVm(i, n, m, p))
    case ForwardLocalPortCall(v, g) => IdOf(api.forwardLocalPort(v, g))
    case InjectSshKeyCall(v, _, _) => v
    case _ => ""
  }

  /** Forwarding, injection and start address the VM by the id carried from
      the step before. */
  predicate TargetsCarriedId(api: Api, calls: seq<ApiCall>)
  {
    forall i | 0 < i < |calls| ::
      (calls[i].ForwardLocalPortCall? || calls[i].InjectSshKeyCall? || calls[i].StartVmCall?) ==>
        calls[i].vm == CarriedId(api, calls[i - 1])
  }

  /** Every call followed by a further step (not the rollback) succeeded. */
  predicate ContinuedOnlyAfterSuccess(api: Api, calls: seq<ApiCall>)
  {
    forall i | 0 <= i < |calls| - 1 :: !calls[i + 1].DestroyVmCall? ==> Status(api, calls[i]) == Ok(())
  }

  /** The rollback destroys the VM only right after a step that returned an
      error: never after a success, and nothing runs after a panic. */
  predicate RolledBackOnlyAfterFailure(api: Api, calls: seq<ApiCall>)
  {
    forall i | 0 < i < |calls| :: calls[i].DestroyVmCall? ==> Status(api, calls[i - 1]).Err?
  }

  /** The predicates above extend one call at a time. */
  lemma WellOrderedSnoc(plan: ResourceModel, calls: seq<ApiCall>, c: ApiCall)
    requires CreateCallsWellOrdered(plan, calls)
    requires !calls[|calls| - 1].DestroyVmCall? && MayFollow(plan, calls[|calls| - 1], c)
    ensures CreateCallsWellOrdered(plan, calls + [c])
  {
    var ext := calls + [c];
    forall i | 0 < i < |ext|
      ensures MayFollow(plan, ext[i - 1], ext[i])
    {
      if i < |calls| {
        assert ext[i - 1] == calls[i - 1] && ext[i] == calls[i];
      }
    }
  }

  lemma TargetsCarriedIdSnoc(api: Api, calls: seq<ApiCall>, c: ApiCall)
    requires |calls| >= 1 && TargetsCarriedId(api, calls)
    requires (c.ForwardLocalPortCall? || c.InjectSshKeyCall? || c.StartVmCall?) ==> c.vm == CarriedId(api, calls[|calls| - 1])
    ensures TargetsCarriedId(api, calls + [c])
  {
    var ext := calls + [c];
    forall i | 0 < i < |ext| && (ext[i].ForwardLocalPortCall? || ext[i].InjectSshKeyCall? || ext[i].StartVmCall?)
      ensures ext[i].vm == CarriedId(api, ext[i - 1])
    {
      if i < |calls| {
        assert ext[i - 1] == calls[i - 1] && ext[i] == calls[i];
      }
    }
  }

  lemma ContinuedSnoc(api: Api, calls: seq<ApiCall>, c: ApiCall)
    requires |calls| >= 1 && ContinuedOnlyAfterSuccess(api, calls)
    requires !c.DestroyVmCall? ==> Status(api, calls[|calls| - 1]) == Ok(())
    ensures ContinuedOnlyAfterSuccess(api, calls + [c])
  {
    var ext := calls + [c];
    forall i | 0 <= i < |ext| - 1 && !ext[i + 1].DestroyVmCall?
      ensures Status(api, ext[i]) == Ok(())
    {
      if i + 1 < |calls| {
        assert ext[i] == calls[i] && ext[i + 1] == calls[i + 1];
      }
    }
  }

  lemma RolledBackSnoc(api: Api, calls: seq<ApiCall>, c: ApiCall)
    requires |calls| >= 1 && RolledBackOnlyAfterFailure(api, calls)
    requires c.DestroyVmCall? ==> Status(api, calls[|calls| - 1]).Err?
    ensures RolledBackOnlyAfterFailure(api, calls + [c])
  {
    var ext := calls + [c];
    forall i | 0 < i < |ext| && ext[i].DestroyVmCall?
      ensures Status(api, ext[i - 1]).Err?
    {
      if i < |calls| {
        assert ext[i - 1] == calls[i - 1] && ext[i] == calls[i];
      }
    }
  }

  /** The four trace properties of Create's calls together. */
  predicate CreateTraceOk(api: Api, plan: ResourceModel, calls: seq<ApiCall>)
  {
    && CreateCallsWellOrdered(plan, calls) && TargetsCarriedId(api, calls)
    && ContinuedOnlyAfterSuccess(api, calls) && RolledBackOnlyAfterFailure(api, calls)
  }

  /** A call that may follow the last one, addresses the id it carried, and
      comes after its success unless it is the rollback, which comes only
      after its error, extends a good trace. */
  lemma TraceSnoc(api: Api, plan: ResourceModel, calls: seq<ApiCall>, c: ApiCall)
    requires |calls| >= 1 && CreateTraceOk(api, plan, calls)
    requires !calls[|calls| - 1].DestroyVmCall? && MayFollow(plan, calls[|calls| - 1], c)
    requires (c.ForwardLocalPortCall? || c.InjectSshKeyCall? || c.StartVmCall?) ==> c.vm == CarriedId(api, calls[|calls| - 1])
    requires !c.DestroyVmCall? ==> Status(api, calls[|calls| - 1]) == Ok(())
    requires c.DestroyVmCall? ==> Status(api, calls[|calls| - 1]).Err?
    ensures CreateTraceOk(api, plan, calls + [c])
  {
    WellOrderedSnoc(plan, calls, c);
    TargetsCarriedIdSnoc(api, calls, c);
    ContinuedSnoc(api, calls, c);
    RolledBackSnoc(api, calls, c);
  }

  /** The case split over CreateWith's outcomes, once for all four trace
      properties: every call extends a good trace. */
  lemma CreateWithTrace(api: Api, plan: ResourceModel, onlyFailures: bool)
    ensures CreateTraceOk(api, plan, CreateWith(api, plan, onlyFailures).calls)
  {
    var r := CreateWith(api, plan, onlyFailures);
    var create := CreateVmCall(plan.image, plan.name, plan.memory, plan.cpu);
    var destroy := DestroyVmCall(plan.name);
    assert CreateTraceOk(api, plan, [create]);
    match api.createVm(plan.image, plan.name, plan.memory, plan.cpu)
    case Panic(p) =>
      assert r.calls == [create];
    case Err(e) =>
      assert r.calls == [create] + [destroy];
      assert Status(api, create) == Err(e);
      TraceSnoc(api, plan, [create], destroy);
    case Ok(created) =>
      assert Status(api, create) == Ok(()) && CarriedId(api, create) == created.id;
      if plan.sshKey.None? {
        var start := StartVmCall(created.id, Headless);
        assert r == StartAndSave(api, plan, [create], created.id, onlyFailures);
        TraceSnoc(api, plan, [create], start);
        assert [create] + [start] == [create, start];
        if api.startVm(created.id, Headless).Err? {
          assert Status(api, start).Err?;
          TraceSnoc(api, plan, [create, start], destroy);
          assert [create] + [start, destroy] == [create, start] + [destroy];
        }
      } else {
        var forward := ForwardLocalPortCall(created.id, SshGuestPort);
        TraceSnoc(api, plan, [create], forward);
        assert [create] + [forward] == [create, forward];
        match api.forwardLocalPort(created.id, SshGuestPort)
        case Panic(p) =>
          assert r.calls == [create, forward];
        case Err(e) =>
          assert r.calls == [create, forward] + [destroy];
          assert Status(api, forward) == Err(e);
          TraceSnoc(api, plan, [create, forward], destroy);
        case Ok(forwarded) =>
          assert Status(api, forward) == Ok(()) && CarriedId(api, forward) == forwarded.id;
          var inject := InjectSshKeyCall(forwarded.id, SshUserOf(plan), plan.sshKey.value);
          TraceSnoc(api, plan, [create, forward], inject);
          assert [create, forward] + [inject] == [create, forward, inject];
          match api.injectSshKey(forwarded.id, SshUserOf(plan), plan.sshKey.value)
          case Panic(p) =>
            assert r.calls == [create, forward, inject];
          case Err(e) =>
            assert r.calls == [create, forward, inject] + [destroy];
            assert Status(api, inject) == Err(e);
            TraceSnoc(api, plan, [create, forward, inject], destroy);
          case Ok(u) =>
            assert api.injectSshKey(forwarded.id, SshUserOf(plan), plan.sshKey.value) == Ok(()) by { assert u == (); }
            assert Status(api, inject) == Ok(());
            var start := StartVmCall(forwarded.id, Headless);
            assert r == StartAndSave(api, plan, [create, forward, inject], forwarded.id, onlyFailures);
            TraceSnoc(api, plan, [create, forward, inject], start);
            assert [create, forward, inject] + [start] == [create, forward, inject, start];
            if api.startVm(forwarded.id, Headless).Err? {
              assert Status(api, start).Err?;
              TraceSnoc(api, plan, [create, forward, inject, start], destroy);
              assert [create, forward, inject] + [start, destroy] == [create, forward, inject, start] + [destroy];
            }
      }
  }

  /** The calls of CreateWith follow the order and arguments of the source. */
  lemma CreateWithCallOrder(api: Api, plan: ResourceModel, onlyFailures: bool)
    ensures CreateCallsWellOrdered(plan, CreateWith(api, plan, onlyFailures).calls)
  {
    CreateWithTrace(api, plan, onlyFailures);
  }

  /** Each step of CreateWith after the first addresses the id carried over. */
  lemma CreateWithTargetsCarriedId(api: Api, plan: ResourceModel, onlyFailures: bool)
    ensures TargetsCarriedId(api, CreateWith(api, plan, onlyFailures).calls)
  {
    CreateWithTrace(api, plan, onlyFailures);
  }

  /** Every step before the one CreateWith stopped at succeeded. */
  lemma CreateWithEarlierStepsSucceeded(api: Api, plan: ResourceModel, onlyFailures: bool)
    ensures ContinuedOnlyAfterSuccess(api, CreateWith(api, plan, onlyFailures).calls)
  {
    CreateWithTrace(api, plan, onlyFailures);
  }

  /** CreateWith destroys the VM only right after a step that returned an error. */
  lemma CreateWithRollsBackOnlyAfterFailure(api: Api, plan: ResourceModel, onlyFailures: bool)
    ensures RolledBackOnlyAfterFailure(api, CreateWith(api, plan, onlyFailures).calls)
  {
    CreateWithTrace(api, plan, onlyFailures);
  }

  /** CreateWith writes the state exactly on success, from StartVM's descriptor. */
  lemma CreateWithSuccess(api: Api, plan: ResourceModel, onlyFailures: bool)
    ensures var r := CreateWith(api, plan, onlyFailures);
            && (r.state.Some? <==> r.completion.Returned? && r.diags == [])
            && (r.state.Some? ==>
                  && Kinds(r.calls) == CreateSteps(plan.sshKey.Some?)
                  && var start := r.calls[|r.calls| - 1];
                     && api.startVm(start.vm, start.boot).Ok?
                     && r.state.value == plan.(id := api.startVm(start.vm, start.boot).value.id,
                                               sshPort := api.startVm(start.vm, start.boot).value.sshPort))
  {
  }

  /** A failed step ends with a destroy by name and the failed step's report. */
  lemma CreateWithFailure(api: Api, plan: ResourceModel, onlyFailures: bool)
    ensures var r := CreateWith(api, plan, onlyFailures);
            r.state.None? && r.completion.Returned? ==>
              && |r.calls| >= 2 && r.calls[|r.calls| - 1] == DestroyVmCall(plan.name)
              && var failed := r.calls[|r.calls| - 2];
                 && Status(api, failed).Err?
                 && (api.destroyVm(plan.name).Ok? ==> r.diags == [Error(FailureSummary(failed), Status(api, failed).msg)])
                 && (api.destroyVm(plan.name).Err? ==>
                       r.diags == [Error(FailureSummary(failed), Status(api, failed).msg),
                                   Error(DestroyError, api.destroyVm(plan.name).msg)])
                 && (!onlyFailures ==> api.destroyVm(plan.name).Err?)
  {
    var r := CreateWith(api, plan, onlyFailures);
    var create := CreateVmCall(plan.image, plan.name, plan.memory, plan.cpu);
    match api.createVm(plan.image, plan.name, plan.memory, plan.cpu)
    case Panic(p) =>
      assert r == Response(Panicked(p), [], None, [create]);
    case Err(e) =>
      assert r == Rollback(api, plan, [create], create, e, onlyFailures);
      assert Status(api, create) == Err(e);
    case Ok(created) =>
      if plan.sshKey.None? {
        assert r == StartAndSave(api, plan, [create], created.id, onlyFailures);
      } else {
        var forward := ForwardLocalPortCall(created.id, SshGuestPort);
        match api.forwardLocalPort(created.id, SshGuestPort)
        case Panic(p) =>
          assert r == Response(Panicked(p), [], None, [create, forward]);
        case Err(e) =>
          assert r == Rollback(api, plan, [create, forward], forward, e, onlyFailures);
          assert Status(api, forward) == Err(e);
        case Ok(forwarded) =>
          var inject := InjectSshKeyCall(forwarded.id, SshUserOf(plan), plan.sshKey.value);
          match api.injectSshKey(forwarded.id, SshUserOf(plan), plan.sshKey.value)
          case Panic(p) =>
            assert r == Response(Panicked(p), [], None, [create, forward, inject]);
          case Err(e) =>
            assert r == Rollback(api, plan, [create, forward, inject], inject, e, onlyFailures);
          case Ok(_) =>
            assert r == StartAndSave(api, plan, [create, forward, inject], forwarded.id, onlyFailures);
      }
  }

  /** Where CreateWith's panics come from. */
  lemma CreateWithPanics(api: Api, plan: ResourceModel, onlyFailures: bool)
    ensures var r := CreateWith(api, plan, onlyFailures);
            r.completion.Panicked? ==>
              && r.state.None? && |r.calls| >= 1
              && (|| Status(api, r.calls[|r.calls| - 1]) == Panic(r.completion.reason)
                  || (!onlyFailures && r.calls[|r.calls| - 1] == DestroyVmCall(plan.name)
                      && api.destroyVm(plan.name).Ok? && r.completion.reason == NilPanic
                      && |r.calls| >= 2 && Status(api, r.calls[|r.calls| - 2]).Err?))
  {
    var r := CreateWith(api, plan, onlyFailures);
    var create := CreateVmCall(plan.image, plan.name, plan.memory, plan.cpu);
    match api.createVm(plan.image, plan.name, plan.memory, plan.cpu)
    case Panic(p) =>
      assert r == Response(Panicked(p), [], None, [create]);
    case Err(e) =>
      assert r == Rollback(api, plan, [create], create, e, onlyFailures);
      assert Status(api, create) == Err(e);
    case Ok(created) =>
      if plan.sshKey.None? {
        assert r == StartAndSave(api, plan, [create], created.id, onlyFailures);
      } else {
        var forward := ForwardLocalPortCall(created.id, SshGuestPort);
        match api.forwardLocalPort(created.id, SshGuestPort)
        case Panic(p) =>
          assert r == Response(Panicked(p), [], None, [create, forward]);
        case Err(e) =>
          assert r == Rollback(api, plan, [create, forward], forward, e, onlyFailures);
          assert Status(api, forward) == Err(e);
        case Ok(forwarded) =>
          var inject := InjectSshKeyCall(forwarded.id, SshUserOf(plan), plan.sshKey.value);
          match api.injectSshKey(forwarded.id, SshUserOf(plan), plan.sshKey.value)
          case Panic(p) =>
            assert r == Response(Panicked(p), [], None, [create, forward, inject]);
          case Err(e) =>
            assert r == Rollback(api, plan, [create, forward, inject], inject, e, onlyFailures);
            assert Status(api, inject) == Err(e);
          case Ok(_) =>
            assert r == StartAndSave(api, plan, [create, forward, inject], forwarded.id, onlyFailures);
      }
  }

  /** Create as written (lines 121-186). */
  function Create(api: Api, plan: ResourceModel): (r: Response)
    // the API is called in the order CreateVM, (ForwardLocalPort, InjectSSHKey), StartVM
    // with the plan's arguments, the default user, and a rollback that destroys by name
    ensures CreateCallsWellOrdered(plan, r.calls)
    // each later step addresses the VM by the id the step before returned
    ensures TargetsCarriedId(api, r.calls)
    // a step is followed by the next only when it succeeded
    ensures ContinuedOnlyAfterSuccess(api, r.calls)
    // and by the rollback only when it returned an error
    ensures RolledBackOnlyAfterFailure(api, r.calls)
    // the state is written exactly when nothing went wrong
    ensures r.state.Some? <==> r.completion.Returned? && r.diags == []
    // then every step ran and the state is the plan with StartVM's id and SSH port
    ensures r.state.Some? ==>
              && Kinds(r.calls) == CreateSteps(plan.sshKey.Some?)
              && var start := r.calls[|r.calls| - 1];
                 && api.startVm(start.vm, start.boot).Ok?
                 && r.state.value == plan.(id := api.startVm(start.vm, start.boot).value.id,
                                           sshPort := api.startVm(start.vm, start.boot).value.sshPort)
    // a failure that returns reports the failed step, destroys the VM, reports the destroy error
    ensures r.completion.Returned? && r.state.None? ==>
              && |r.calls| >= 2 && r.calls[|r.calls| - 1] == DestroyVmCall(plan.name)
              && var failed := r.calls[|r.calls| - 2];
                 && Status(api, failed).Err? && api.destroyVm(plan.name).Err?
                 && r.diags == [Error(FailureSummary(failed), Status(api, failed).msg),
                                Error(DestroyError, api.destroyVm(plan.name).msg)]
    // a panic comes from an API call that panicked or from a rollback whose destroy succeeded
    ensures r.completion.Panicked? ==>
              && r.state.None? && |r.calls| >= 1
              && (|| Status(api, r.calls[|r.calls| - 1]) == Panic(r.completion.reason)
                  || (r.calls[|r.calls| - 1] == DestroyVmCall(plan.name) && api.destroyVm(plan.name).Ok?
                      && r.completion.reason == NilPanic
                      // only as the rollback after a step that failed
                      && |r.calls| >= 2 && Status(api, r.calls[|r.calls| - 2]).Err?))
  {
    CreateWithCallOrder(api, plan, false);
    CreateWithTargetsCarriedId(api, plan, false);
    CreateWithEarlierStepsSucceeded(api, plan, false);
    CreateWithRollsBackOnlyAfterFailure(api, plan, false);
    CreateWithSuccess(api, plan, false);
    CreateWithFailure(api, plan, false);
    CreateWithPanics(api, plan, false);
    CreateWith(api, plan, false)
  }

  /** Create with the rollback reporting the destroy error only when there
      is one: the correction of Create's rollback. */
  function CreateReportingRollback(api: Api, plan: ResourceModel): (r: Response)
    ensures CreateCallsWellOrdered(plan, r.calls) && TargetsCarriedId(api, r.calls)
    ensures ContinuedOnlyAfterSuccess(api, r.calls) && RolledBackOnlyAfterFailure(api, r.calls)
    ensures r.state.Some? <==> r.completion.Returned? && r.diags == []
    ensures r.state.Some? ==>
              && Kinds(r.calls) == CreateSteps(plan.sshKey.Some?)
              && var start := r.calls[|r.calls| - 1];
                 && api.startVm(start.vm, start.boot).Ok?
                 && r.state.value == plan.(id := api.startVm(start.vm, start.boot).value.id,
                                           sshPort := api.startVm(start.vm, start.boot).value.sshPort)
    // a failure reports the failed step, and the destroy error exactly when there is one
    ensures r.completion.Returned? && r.state.None? ==>
              && |r.calls| >= 2 && r.calls[|r.calls| - 1] == DestroyVmCall(plan.name)
              && var failed := r.calls[|r.calls| - 2];
                 && Status(api, failed).Err?
                 && (api.destroyVm(plan.name).Ok? ==> r.diags == [Error(FailureSummary(failed), Status(api, failed).msg)])
                 && (api.destroyVm(plan.name).Err? ==>
                       r.diags == [Error(FailureSummary(failed), Status(api, failed).msg),
                                   Error(DestroyError, api.destroyVm(plan.name).msg)])
    // it panics only where an API call panicked
    ensures r.completion.Panicked? ==>
              r.state.None? && |r.calls| >= 1 && Status(api, r.calls[|r.calls| - 1]) == Panic(r.completion.reason)
  {
    CreateWithCallOrder(api, plan, true);
    CreateWithTargetsCarriedId(api, plan, true);
    CreateWithEarlierStepsSucceeded(api, plan, true);
    CreateWithRollsBackOnlyAfterFailure(api, plan, true);
    CreateWithSuccess(api, plan, true);
    CreateWithFailure(api, plan, true);
    CreateWithPanics(api, plan, true);
    CreateWith(api, plan, true)
  }

  /** The two variants differ only when a rollback's destroy succeeded: Create
      then dies in a nil-pointer panic where the correction returns with the
      failed step's report. */
  lemma CreateDiffersOnlyAfterSuccessfulDestroy(api: Api, plan: ResourceModel)
    ensures var written := Create(api, plan);
            var fixed := CreateReportingRollback(api, plan);
            written != fixed ==>
              && api.destroyVm(plan.name).Ok?
              && written.completion == Panicked(NilPanic)
              && fixed == written.(completion := Returned)
  {
    var create := CreateVmCall(plan.image, plan.name, plan.memory, plan.cpu);
    match api.createVm(plan.image, plan.name, plan.memory, plan.cpu)
    case Panic(_) =>
    case Err(_) =>
    case Ok(created) =>
      if plan.sshKey.Some? {
        match api.forwardLocalPort(created.id, SshGuestPort)
        case Panic(_) =>
        case Err(_) =>
        case Ok(forwarded) =>
      }
  }

  /** As written, a failed CreateVM followed by a successful destroy panics
      after reporting the creation error. */
  lemma RollbackPanicsAfterSuccessfulDestroy(api: Api, plan: ResourceModel)
    requires api.createVm(plan.image, plan.name, plan.memory, plan.cpu).Err?
    requires api.destroyVm(plan.name).Ok?
    ensures Create(api, plan)
            == Response(Panicked(NilPanic),
                        [Error("Error creating new vm", api.createVm(plan.image, plan.name, plan.memory, plan.cpu).msg)],
                        None,
                        [CreateVmCall(plan.image, plan.name, plan.memory, plan.cpu), DestroyVmCall(plan.name)])
  {
  }

  /** The corrected rollback returns after the same report. */
  lemma ReportingRollbackReturnsAfterSuccessfulDestroy(api: Api, plan: ResourceModel)
    requires api.createVm(plan.image, plan.name, plan.memory, plan.cpu).Err?
    requires api.destroyVm(plan.name).Ok?
    ensures CreateReportingRollback(api, plan)
            == Response(Returned,
                        [Error("Error creating new vm", api.createVm(plan.image, plan.name, plan.memory, plan.cpu).msg)],
                        None,
                        [CreateVmCall(plan.image, plan.name, plan.memory, plan.cpu), DestroyVmCall(plan.name)])
  {
  }

  const ReadError := "Error getting vm info"

  /** Read (lines 188-207): refresh the SSH port from GetVMInfo of the stored
      id. On error the handler writes no state and the prior one stays. */
  function Read(api: Api, prior: ResourceModel): (r: Response)
    ensures r.calls == [GetVmInfoCall(prior.id)]
    ensures r.state.Some? <==> api.getVmInfo(prior.id).Ok?
    // only the SSH port is refreshed; every configured attribute and the id stay
    ensures r.state.Some? ==>
              && r.completion.Returned? && r.diags == []
              && r.state.value.(sshPort := prior.sshPort) == prior
              && r.state.value.sshPort == api.getVmInfo(prior.id).value.sshPort
    ensures api.getVmInfo(prior.id).Err? ==>
              r.completion.Returned? && r.diags == [Error(ReadError, api.getVmInfo(prior.id).msg)]
    ensures api.getVmInfo(prior.id).Panic? ==> r.completion == Panicked(api.getVmInfo(prior.id).reason)
  {
    match api.getVmInfo(prior.id)
    case Ok(info) => Response(Returned, [], Some(prior.(sshPort := info.sshPort)), [GetVmInfoCall(prior.id)])
    case Err(e) => Response(Returned, [Error(ReadError, e)], None, [GetVmInfoCall(prior.id)])
    case Panic(p) => Response(Panicked(p), [], None, [GetVmInfoCall(prior.id)])
  }

  /** The state a Read wrote keeps the stored id, so reading it again asks
      about the same VM; as `getVmInfo` answers by the id alone, the second
      Read then also gives the same response. */
  lemma ReadIsStable(api: Api, prior: ResourceModel)
    requires Read(api, prior).state.Some?
    ensures Read(api, Read(api, prior).state.value) == Read(api, prior)
  {
    var s := Read(api, prior).state.value;
    assert s.id == prior.id;
    assert s.(sshPort := api.getVmInfo(prior.id).value.sshPort) == s;
  }

  /** Update (lines 209-221): the plan becomes the state; no API call. */
  function Update(plan: ResourceModel): (r: Response)
    ensures r.completion.Returned? && r.diags == [] && r.calls == []
    ensures r.state == Some(plan)
  {
    Response(Returned, [], Some(plan), [])
  }

  /** Delete (lines 223-241): destroy the VM by its stored id, not its name. */
  function Delete(api: Api, state: ResourceModel): (r: Response)
    ensures r.calls == [DestroyVmCall(state.id)] && r.state.None?
    ensures api.destroyVm(state.id).Ok? ==> r.completion.Returned? && r.diags == []
    ensures api.destroyVm(state.id).Err? ==>
              r.completion.Returned? && r.diags == [Error(DestroyError, api.destroyVm(state.id).msg)]
    ensures api.destroyVm(state.id).Panic? ==> r.completion == Panicked(api.destroyVm(state.id).reason)
  {
    match api.destroyVm(state.id)
    case Ok(_) => Response(Returned, [], None, [DestroyVmCall(state.id)])
    case Err(e) => Response(Returned, [Error(DestroyError, e)], None, [DestroyVmCall(state.id)])
    case Panic(p) => Response(Panicked(p), [], None, [DestroyVmCall(state.id)])
  }

  /** After a successful Create, Read and Delete address the VM by the id
      StartVM returned, and Read keeps the state Create wrote apart from the
      refreshed SSH port. */
  lemma LifecycleAddressesStartedVm(api: Api, plan: ResourceModel)
    requires Create(api, plan).state.Some?
    ensures var r := Create(api, plan);
            var start := r.calls[|r.calls| - 1];
            var id := api.startVm(start.vm, start.boot).value.id;
            && start.StartVmCall?
            && Read(api, r.state.value).calls == [GetVmInfoCall(id)]
            && Delete(api, r.state.value).calls == [DestroyVmCall(id)]
            && (Read(api, r.state.value).state.Some? ==>
                  Read(api, r.state.value).state.value.(sshPort := r.state.value.sshPort) == r.state.value)
  {
    var r := Create(api, plan);
    assert KindOf(r.calls[|r.calls| - 1]) == KStart;
  }
}
